=== FILE: README.md ===
# Whispers, reveal sequencer and maths helpers: a Dafny model

This project models three pieces of a browser game written in JavaScript.

- **The whisper synchroniser** (`Whispers`, sources/Game/World/Whispers.js).
  - The client keeps a `Map` from whisper id to an item object `{ message, position }`.
  - The server's `init`, `whispersUpsert` and `whispersDelete` messages are folded into it.
  - Every tick, a dirty map is projected onto a 30-instance beam mesh. Unused instances are parked at (0, -2, 0).
  - The whisper closest to the vehicle, and within 3 units, drives a message bubble.
  - The modal that composes a whisper trims the typed text, cuts it to 30 characters and previews it.
- **The reveal sequencer** (`Reveal`, sources/Game/Reveal.js).
  - A step counter starts at -1.
  - `updateStep(0)` runs the step-0 effects, then chains straight into step 1 and step 2.
  - Step 2 starts the server session and removes the sequencer's tick listener.
- **The numeric helpers** (sources/Game/utilities/maths.js): `clamp`, `remap`, `remapClamp`, `lerp`, `smoothstep`, `safeMod` and `signedModDelta`.

Modules:

- `Wrappers`: `Option`.
- `Maths`: the helpers over `real` and `int`. The JavaScript `%` is modelled as a truncating remainder `Rem`, following Number::remainder in section 6.1.6.1.6 of ECMA-262.
- `WhisperStore`: the `Map` as a sequence of unique-keyed entries in insertion order, following section 24.1 of ECMA-262.
  - Each item carries an object identity `ref`, drawn from a counter. An in-place update keeps it; delete-then-insert makes a new object.
  - `Upsert`, `Delete` and their batch folds, with a reference filter `Without` and a last-write-wins reference `Settle`.
- `Whispers`: the instance state.
  - The server message handler and the constructor's `initData` fold.
  - The rebuild loop (`Rebuild`), the closest-whisper fold (`Closest`), and `Update`, which combines them with the bubble decision.
- `WhisperModal`: `trim()` over the ECMA-262 WhiteSpace and LineTerminator code points (sections 12.2 and 12.3), `substring(0, 30)`, and the preview text.
- `Reveal`: `updateStep` as a function returning the new sequencer and an effect trace.
  - Calls on collaborators (grid, view, intro loader, audio, inputs, world, server, ticker) become trace entries.
  - A call on a null `world.intro` throws. The throw cuts the trace short and skips every pending `this.step = step`.

Three behaviours of the code are easy to misread, and the model keeps them as written:

- The step counter is not monotone. `this.step = step` (Reveal.js:122) runs after the nested call returns, so a chain started at 0 ends with the counter at 0. Nothing guards the value, so any step number can be stored (`Reveal.UnknownStep`).
- The message handler's `this.needsUpdate = true` writes a field of the instance that nothing reads; it is not `data.needsUpdate`. So an empty batch triggers no rebuild (`Whispers.EmptyBatchKeepsInstances`).
- The bubble gets `hide` only when no whisper is close. A change from one close whisper to another is a single `tryShow` with the new message (`Whispers.Update`).

## Model

| member | source | states |
|---|---|---|
| Maths.Clamp | sources/Game/utilities/maths.js:1-4 | for lo <= hi the result lies in [lo, hi], equals the input when it is already in range, and is the nearer bound otherwise; for hi < lo it is lo |
| Maths.Remap | sources/Game/utilities/maths.js:6-9 | inLow is sent to outLow and inHigh to outHigh |
| Maths.RemapIsLerp | sources/Game/utilities/maths.js:6-19 | remap is a lerp between the output bounds at the input's relative position |
| Maths.RemapClamp | sources/Game/utilities/maths.js:11-14 | the result lies between min(outLow, outHigh) and max(outLow, outHigh), equals remap when remap already does, is the nearer end of the output interval when remap falls outside it, and keeps both endpoints |
| Maths.Lerp | sources/Game/utilities/maths.js:16-19 | ratio 0 gives start and ratio 1 gives end |
| Maths.LerpBetween | sources/Game/utilities/maths.js:16-19 | for a ratio in [0, 1] the result lies between start and end |
| Maths.CubicInUnit | sources/Game/utilities/maths.js:24 | the Hermite cubic x*x*(3-2x) maps [0, 1] into [0, 1] |
| Maths.CubicMonotone | sources/Game/utilities/maths.js:24 | the Hermite cubic is non-decreasing on [0, 1] |
| Maths.Smoothstep | sources/Game/utilities/maths.js:21-25 | the result lies in [0, 1]; it is 0 when value <= min and 1 when value >= max (for min < max) |
| Maths.SmoothstepMonotone | sources/Game/utilities/maths.js:21-25 | for min < max, smoothstep never decreases as value grows |
| Maths.SmoothstepSymmetric | sources/Game/utilities/maths.js:21-25 | reflecting the value through the middle of the interval reflects the result through 1/2 |
| Maths.SmoothstepMidpoint | sources/Game/utilities/maths.js:21-25 | halfway through the interval smoothstep is exactly 1/2 |
| Maths.Rem | sources/Game/utilities/maths.js:29 | the truncating `%`: smaller in magnitude than the divisor, with the sign of the dividend, and congruent to it |
| Maths.SafeMod | sources/Game/utilities/maths.js:27-30 | for m > 0 the result lies in [0, m), for m < 0 in (m, 0], and it is congruent to n modulo m |
| Maths.SafeModIsEuclidean | sources/Game/utilities/maths.js:27-30 | for m > 0 safeMod agrees with the Euclidean remainder |
| Maths.SignedModDelta | sources/Game/utilities/maths.js:32-38 | a + delta is congruent to b modulo mod |
| Maths.SignedModDeltaRange | sources/Game/utilities/maths.js:32-38 | for a, b in [0, mod) the delta lies in (-mod/2, mod/2] |
| Maths.SignedModDeltaShortest | sources/Game/utilities/maths.js:32-38 | no other step k with a + k congruent to b is shorter than the delta |
| WhisperStore.IndexOf | sources/Game/World/Whispers.js:103 | `items.get` finds the first entry with the key, and finds none exactly when no entry has it |
| WhisperStore.Upsert | sources/Game/World/Whispers.js:101-124 | an unseen id appends one new object at the end; an existing id overwrites message and position in place with key order, identity and all other entries unchanged; the flag is raised and the invariant kept |
| WhisperStore.UpsertSlot | sources/Game/World/Whispers.js:106-120 | the record lands at the existing key's index, or at the new last index |
| WhisperStore.UpsertKeeps | sources/Game/World/Whispers.js:106-110 | every existing index keeps its key and object, and entries of other keys are unchanged |
| WhisperStore.UpsertGet | sources/Game/World/Whispers.js:101-124 | after an upsert the key maps to the record's message and position and every other key maps to what it did before |
| WhisperStore.UpsertReplay | sources/Game/World/Whispers.js:101-124 | applying the same upsert twice leaves the state of the first application |
| WhisperStore.Delete | sources/Game/World/Whispers.js:126-131 | an absent id leaves the entries unchanged; a present one is removed with the others kept in order; the flag is raised |
| WhisperStore.DeleteGet | sources/Game/World/Whispers.js:126-131 | after a delete the key is absent and every other key maps to what it did before |
| WhisperStore.DeleteShift | sources/Game/World/Whispers.js:128 | the entries after a delete are the old ones with the deleted slot squeezed out, still uniquely keyed |
| WhisperStore.DeleteReplay | sources/Game/World/Whispers.js:126-131 | deleting an id twice is deleting it once |
| WhisperStore.DeleteIsWithout | sources/Game/World/Whispers.js:128 | a single delete equals the reference filter by that one key |
| WhisperStore.UpsertAll | sources/Game/World/Whispers.js:139-140 | the batch fold keeps the invariant, raises the flag exactly when the batch is non-empty, and never lowers the identity counter |
| WhisperStore.UpsertAllKeepsKeys | sources/Game/World/Whispers.js:139-140 | a batch keeps every existing key in its place with the same object |
| WhisperStore.UpsertAllUntouched | sources/Game/World/Whispers.js:139-140 | entries whose key the batch does not name come out unchanged |
| WhisperStore.UpsertAllCovers | sources/Game/World/Whispers.js:139-140 | every key named by the batch is present afterwards |
| WhisperStore.UpsertAllNewKeys | sources/Game/World/Whispers.js:139-140 | every entry a batch appends carries a key the batch names |
| WhisperStore.UpsertAllFresh | sources/Game/World/Whispers.js:112-120 | every entry a batch appends holds an object allocated by the batch, so no identity of a live or deleted object is reused |
| WhisperStore.FirstAt | sources/Game/World/Whispers.js:139-140 | the index of the first record naming a key, the batch length exactly when none does |
| WhisperStore.UpsertAllOrder | sources/Game/World/Whispers.js:112-120 | a batch appends its new keys in the order of their first records |
| WhisperStore.UpsertAllFromEmpty | sources/Game/World/Whispers.js:156-162 | folding a snapshot into the empty map leaves exactly the snapshot's keys |
| WhisperStore.UpsertAllPresent | sources/Game/World/Whispers.js:106-110 | a batch whose keys are all present adds nothing and leaves each item as the last-write-wins reference says |
| WhisperStore.UpsertAllSettled | sources/Game/World/Whispers.js:139-140 | after a batch every item already holds what the last record for its key says |
| WhisperStore.UpsertBatchReplay | sources/Game/World/Whispers.js:139-140 | replaying a whole upsert batch leaves the state of the first pass |
| WhisperStore.DeleteAll | sources/Game/World/Whispers.js:148-151 | the delete fold equals the reference filter by the batch's keys and raises the flag exactly when the batch is non-empty |
| WhisperStore.WithoutConcat | sources/Game/World/Whispers.js:148-151 | filtering distributes over concatenation |
| WhisperStore.WithoutTwice | sources/Game/World/Whispers.js:148-151 | filtering by two key sets in turn is filtering by their union |
| WhisperStore.DeleteBatchReplay | sources/Game/World/Whispers.js:148-151 | replaying a delete batch changes nothing |
| WhisperStore.Last | sources/Game/World/Whispers.js:139-140 | the last record for a key exists exactly when the batch names the key |
| WhisperStore.SettleCons | sources/Game/World/Whispers.js:139-140 | the last-write-wins reference unfolds record by record from the front |
| Whispers.Init | sources/Game/World/Whispers.js:95-163 | without init data the map is empty and no flag is raised; with it the keys are exactly the snapshot's keys, in the order of their first records, each item holds what the last record for its key says, the instance flag is set, and the data flag is raised exactly when the snapshot is non-empty |
| Whispers.OnMessage | sources/Game/World/Whispers.js:134-154 | upsert and init tags keep every existing key in its place with its object, leave the entries of keys the batch does not name unchanged, add every key of the batch and no other, append new keys as fresh objects in the order of their first records, and leave each item holding what the last record for its key says; the delete tag removes exactly the batch's keys; any other tag changes nothing; the data flag is raised only by a non-empty batch |
| Whispers.SingleBatch | sources/Game/World/Whispers.js:139-151 | a one-record batch is a single upsert or delete |
| Whispers.SingleRecordMessage | sources/Game/World/Whispers.js:134-154 | a one-record upsert or delete message is one store operation plus the instance flag, with nothing else in the state changed |
| Whispers.Closest | sources/Game/World/Whispers.js:292-303 | the pick is within 3 units, no whisper is strictly closer, every earlier whisper is strictly farther (first wins on ties), and there is no pick exactly when none is within 3 units |
| Whispers.ClosestByPositions | sources/Game/World/Whispers.js:292-303 | the pick depends only on the positions, in iteration order |
| Whispers.Rebuild | sources/Game/World/Whispers.js:267-289 | slot i holds the i-th entry's position, the slots from the entry count up to 30 hold (0, -2, 0), writes past 30 are counted as dropped, and the result is the reference projection |
| Whispers.Update | sources/Game/World/Whispers.js:264-318 | a set flag rebuilds the slots, shows the mesh and clears the flag, while a clear flag leaves slots alone; the remembered object becomes the first in-range whisper nearest the vehicle, or none when none is in range; the bubble is called exactly when the picked object differs from the remembered one, with `hide` for no pick and `tryShow` with the message 1.25 above the whisper otherwise |
| Whispers.EmptyBatchKeepsInstances | sources/Game/World/Whispers.js:137-143 | an empty batch does not raise the data flag, so the next tick leaves the instances as they were |
| Whispers.EditKeepsPick | sources/Game/World/Whispers.js:106-110 | an upsert that keeps a whisper's position leaves the picked object unchanged |
| Whispers.MessageEditKeepsBubble | sources/Game/World/Whispers.js:305-317 | a new message for any whisper at its old position keeps the same object picked, so the next tick makes no bubble call and a bubble showing that whisper keeps its old text |
| Whispers.ReinsertIsNewObject | sources/Game/World/Whispers.js:113-120 | deleting and re-inserting an id creates a new object, distinct from the one the bubble remembers |
| Whispers.TwoWhispersState | sources/Game/World/Whispers.js:95-154 | a fresh instance receiving the two-whisper batch holds both entries, both flags raised, every slot at the origin, a hidden mesh and no remembered whisper |
| Whispers.NearestOfTwo | sources/Game/World/Whispers.js:291-316 | with whispers at the origin and ten units along x, a vehicle at (1, 0, 0) gets `tryShow` of the first message 1.25 above the origin |
| Whispers.NearestShown | sources/Game/World/Whispers.js:292-313 | after a batch of two whispers, a vehicle 1 unit from the first and 9 from the second gets one tick that shows the first message anchored 1.25 above it |
| Whispers.DeleteShownHides | sources/Game/World/Whispers.js:264-317 | after the two-whisper batch and one tick, deleting the shown whisper leaves one whisper 9 units away: the next tick parks the freed instance at the sentinel and hides the bubble |
| Whispers.TwoWhispers | sources/Game/World/Whispers.js:101-124 | two upserts of new ids append two new objects in order, with identities 0 and 1 |
| WhisperModal.Trim | sources/Game/World/Whispers.js:221 | the result is the slice after the leading whitespace, everything after it is whitespace, its last code point is not, and it is empty exactly when the input is all whitespace |
| WhisperModal.Truncate | sources/Game/World/Whispers.js:228 | the result is a prefix of at most 30 code points, the whole input when that is short enough |
| WhisperModal.Sanitize | sources/Game/World/Whispers.js:236 | the result is a prefix of the trimmed input of at most 30 code points, exactly 30 when the trimmed input is longer, empty exactly when the input is all whitespace |
| WhisperModal.Preview | sources/Game/World/Whispers.js:221-222 | all-whitespace input previews the placeholder, any other input its sanitised, non-empty text |
| WhisperModal.TrimIdempotent | sources/Game/World/Whispers.js:221 | trimming a trimmed string changes nothing |
| WhisperModal.TruncateIdempotent | sources/Game/World/Whispers.js:228-230 | cutting an already cut preview again changes nothing, so the `input` handler's write-back is stable |
| Reveal.Create | sources/Game/Reveal.js:12 | the step counter starts at -1, outside the known steps |
| Reveal.UpdateStep | sources/Game/Reveal.js:46-123 | without a throw the counter ends at the requested step, and with one it is unchanged; a throw happens exactly for a known step with no intro loader, and the intro loader is gone after any known step |
| Reveal.ChainFromZero | sources/Game/Reveal.js:50-122 | step 0 runs the step-0, step-1 and step-2 blocks once each in that order, assigns 2, 1, 0 in that order and ends at 0 |
| Reveal.ChainFromOne | sources/Game/Reveal.js:78-122 | step 1 runs the step-1 then step-2 blocks and ends at 1 |
| Reveal.UnknownStep | sources/Game/Reveal.js:50-122 | any other value runs no effect and is stored as it is, even when smaller |
| Reveal.CountAppend | sources/Game/Reveal.js:50-122 | occurrences in a concatenated trace add up |
| Reveal.ServerStartOnce | sources/Game/Reveal.js:108-120 | server start, listener removal and intro teardown occur once in a call that completes step 2 and never otherwise |
| Reveal.FiltersAppend | sources/Game/Reveal.js:91-92 | replaying a trace's filter effects is a left fold over its parts |
| Reveal.StepOneFilters | sources/Game/Reveal.js:91-92 | the step-1 block leaves the filter set exactly {'wandering'} |
| Reveal.FiltersAfterStepOne | sources/Game/Reveal.js:91-92 | whatever filters were set before, a completed chain through step 1 leaves exactly {'wandering'} |
| Reveal.DelayedLabelOnce | sources/Game/Reveal.js:54-69 | step 0 begins with the grid, reveal distance and zoom effects, and schedules exactly one delayed `showLabel`, one second out |
| Reveal.FireShowLabel | sources/Game/Reveal.js:66-69 | the delayed callback as written throws exactly when the intro loader is gone |
| Reveal.ShowLabelAfterChainThrows | sources/Game/Reveal.js:66-115 | after a completed chain from step 0 the scheduled callback, as written, throws |
| Reveal.FireShowLabelGuarded | sources/Game/Reveal.js:66-69 | the guarded callback never throws and behaves as written whenever the intro loader is there |

## Left out

- Rendering, the GPU material and the bubble's own behaviour are left out. The mesh is reduced to its instance positions and visibility; the bubble to the `hide` and `tryShow` calls made on it.
- The DOM is left out. This covers listeners, class toggling in `updateGroup`, the submit handler, and the outbound `server.send` packet, which is a foreign call.
- The ticker and scheduler are not part of this model. `ticker.wait` and `events.off` appear only as trace entries.
- Reveal's `update` colour copy and the `location.hash` speed multiplier are left out. Neither touches the sequencer state.
- Floating point is not modelled: positions, ratios and distances are `real`. Distances are compared squared against 9 rather than through `sqrt`.
- Maths.Remap: requires inHigh != inLow, because JavaScript returns Infinity or NaN there.
- Maths.RemapClamp: requires inHigh != inLow. In JavaScript the remapped value is then ±Infinity, which the clamp turns into the nearer output bound, or NaN when the input equals inLow, which passes through the clamp as NaN.
- Maths.Smoothstep: requires min != max. In JavaScript the clamped ratio is then 0 for a value below min, 1 for a value above it, and NaN for a value equal to it, so the result is 0, 1 or NaN.
- Maths.Rem: requires a non-zero divisor, because JavaScript returns NaN there. Only integer operands are modelled.
- Maths.SafeMod: requires a non-zero divisor, because JavaScript returns NaN there.
- Maths.SignedModDelta: requires a non-zero modulus. The range and shortest-step properties are stated only for a positive modulus and a, b in [0, mod).
- WhisperModal.Truncate: counts Unicode code points. JavaScript's `substring` counts UTF-16 code units, so a message with characters outside the Basic Multilingual Plane is cut at a different length.
- WhisperModal.Sanitize: same code-point versus UTF-16 caveat as Truncate, because it truncates the trimmed text.
- WhisperModal.Preview: same code-point versus UTF-16 caveat as Truncate, because it shows the sanitised text.
- Whispers.Rebuild: `setMatrixAt` at an index of 30 or more writes outside the 30-instance buffer. The model records those writes as `dropped` rather than modelling three.js's out-of-range behaviour.
- Whispers.OnMessage: messages are typed. Every tagged message is taken to carry a `whispers` array of records with a string id and message and numeric `x`, `y`, `z`. The source behaves differently on anything else:
  - a tagged message without that array throws at the `for…of` before any change;
  - a `null` record throws at `input.id` in `upsert` or `delete` part-way through a batch. The earlier records stay applied, `data.needsUpdate` is raised if there were any, and the instance flag is not set;
  - a record missing a coordinate stores a non-numeric position.
- Whispers.Init: the rest of the constructor is not modelled: mesh creation, the bubble instance, the modal and the tick registration. Instance positions start at the identity matrix's origin.
- The angle and geometry helpers of maths.js (`smallestAngle`, `segmentCircleIntersection`) are left out. They depend on floating-point π and `sqrt`.

## Findings

| source | as written | input that shows it | evidently intended | confidence | as-written member | corrected member |
|---|---|---|---|---|---|---|
| sources/Game/Reveal.js:66-69 | step 0 schedules `() => world.intro.showLabel()` one second out, then chains synchronously into step 2, which sets `world.intro = null` (line 115) | `updateStep(0)` on a fresh scene; one second later the callback dereferences null and throws a TypeError | the label callback does nothing once the intro loader is gone (the comment at line 75 says the user interaction that used to separate step 0 from step 1 was removed) | medium, not executed; the ticker's `wait` is not part of this model | Reveal.FireShowLabel | Reveal.FireShowLabelGuarded |

=== FILE: maths.dfy ===
/**
 Numeric helpers of `sources/Game/utilities/maths.js`.

 The source works on IEEE doubles; this model states the helpers over Dafny's
 exact `real` (clamp, remap, remapClamp, lerp, smoothstep) and `int`
 (safeMod, signedModDelta). JavaScript's `%` is a truncating remainder whose
 sign follows the dividend (section 6.1.6.1.6 of ECMA-262, Number::remainder);
 it is modelled by `Rem`, not by Dafny's Euclidean `%`.
 */
module Maths {

  function Min(a: real, b: real): real { if a <= b then a else b }

  function Max(a: real, b: real): real { if a >= b then a else b }

  /** Caps `input` at `hi` first, then raises it to at least `lo`; when the
      bounds are the wrong way round, `lo` wins. */
  function Clamp(input: real, lo: real, hi: real): (r: real)
    ensures lo <= hi ==> lo <= r <= hi
    ensures lo <= input <= hi ==> r == input
    ensures lo <= hi && input <= lo ==> r == lo
    ensures lo <= hi && hi <= input ==> r == hi
    ensures hi < lo ==> r == lo
  {
    Max(lo, Min(input, hi))
  }

  /** Linear map of `input` from [inLow, inHigh] onto [outLow, outHigh]. */
  function Remap(input: real, inLow: real, inHigh: real, outLow: real, outHigh: real): (r: real)
    requires inHigh != inLow
    ensures input == inLow ==> r == outLow
    ensures input == inHigh ==> r == outHigh
  {
    DivCancel(outHigh - outLow, inHigh - inLow);
    assert (inHigh - inLow) * (outHigh - outLow) == (outHigh - outLow) * (inHigh - inLow);
    ((input - inLow) * (outHigh - outLow)) / (inHigh - inLow) + outLow
  }

  lemma DivCancel(a: real, b: real)
    requires b != 0.0
    ensures (a * b) / b == a
  {
  }

  /** `remap` followed by a clamp to the output interval, whichever way round
      the output ends are given. */
  function RemapClamp(input: real, inLow: real, inHigh: real, outLow: real, outHigh: real): (r: real)
    requires inHigh != inLow
    ensures Min(outLow, outHigh) <= r <= Max(outLow, outHigh)
    ensures Min(outLow, outHigh) <= Remap(input, inLow, inHigh, outLow, outHigh) <= Max(outLow, outHigh)
            ==> r == Remap(input, inLow, inHigh, outLow, outHigh)
    ensures Remap(input, inLow, inHigh, outLow, outHigh) > Max(outLow, outHigh) ==> r == Max(outLow, outHigh)
    ensures Remap(input, inLow, inHigh, outLow, outHigh) < Min(outLow, outHigh) ==> r == Min(outLow, outHigh)
    ensures input == inLow ==> r == outLow
    ensures input == inHigh ==> r == outHigh
  {
    Clamp(Remap(input, inLow, inHigh, outLow, outHigh),
          if outLow < outHigh then outLow else outHigh,
          if outLow > outHigh then outLow else outHigh)
  }

  /** The point at fraction `ratio` of the way from `start` to `end`; ratios
      outside [0, 1] extrapolate. */
  function Lerp(start: real, end: real, ratio: real): (r: real)
    ensures ratio == 0.0 ==> r == start
    ensures ratio == 1.0 ==> r == end
  {
    (1.0 - ratio) * start + ratio * end
  }

  lemma MulBounds(t: real, d: real)
    requires 0.0 <= t <= 1.0 && 0.0 <= d
    ensures 0.0 <= t * d <= d
  {
    assert (1.0 - t) * d >= 0.0;
  }

  lemma MulNonneg(x: real, y: real)
    requires 0.0 <= x && 0.0 <= y
    ensures 0.0 <= x * y
  {
  }

  lemma LerpShape(start: real, end: real, ratio: real)
    ensures Lerp(start, end, ratio) == start + ratio * (end - start)
  {
  }

  /** A lerp whose ratio is in [0, 1] stays between its two ends. */
  lemma LerpBetween(start: real, end: real, ratio: real)
    requires 0.0 <= ratio <= 1.0
    ensures Min(start, end) <= Lerp(start, end, ratio) <= Max(start, end)
  {
    LerpShape(start, end, ratio);
    ProdSign(ratio, end - start);
    BetweenByOffset(start, end, ratio * (end - start));
  }

  /** Scaling by a fraction in [0, 1] keeps a product between 0 and the
      factor, whatever the factor's sign. */
  lemma ProdSign(t: real, d: real)
    requires 0.0 <= t <= 1.0
    ensures 0.0 <= d ==> 0.0 <= t * d <= d
    ensures d < 0.0 ==> d <= t * d <= 0.0
  {
    if 0.0 <= d {
      MulBounds(t, d);
    } else {
      MulBounds(t, -d);
      assert t * d == -(t * -d);
    }
  }

  lemma BetweenByOffset(start: real, end: real, x: real)
    requires start <= end ==> 0.0 <= x <= end - start
    requires end < start ==> end - start <= x <= 0.0
    ensures Min(start, end) <= start + x <= Max(start, end)
  {
  }

  /** `remap` is the lerp of the output ends at the input's relative position
      in the input interval. */
  lemma RemapIsLerp(input: real, inLow: real, inHigh: real, outLow: real, outHigh: real)
    requires inHigh != inLow
    ensures Remap(input, inLow, inHigh, outLow, outHigh)
            == Lerp(outLow, outHigh, (input - inLow) / (inHigh - inLow))
  {
    var t := (input - inLow) / (inHigh - inLow);
    assert t * (inHigh - inLow) == input - inLow;
    assert (input - inLow) * (outHigh - outLow) == t * (outHigh - outLow) * (inHigh - inLow);
    DivCancel(t * (outHigh - outLow), inHigh - inLow);
    LerpShape(outLow, outHigh, t);
  }

  /** The Hermite cubic `x * x * (3 - 2x)` maps [0, 1] into [0, 1]. */
  lemma CubicInUnit(x: real)
    requires 0.0 <= x <= 1.0
    ensures 0.0 <= x * x * (3.0 - 2.0 * x) <= 1.0
  {
    var sq := x * x;
    assert 0.0 <= sq by { MulBounds(x, x); }
    assert 0.0 <= sq * (3.0 - 2.0 * x);
    var c := (1.0 - x) * (1.0 - x);
    assert c >= 0.0 by { MulBounds(1.0 - x, 1.0 - x); }
    assert c == 1.0 - 2.0 * x + sq;
    assert c * (1.0 + 2.0 * x) == (1.0 - 2.0 * x + sq) + (2.0 * x - 4.0 * sq + 2.0 * (sq * x));
    assert sq * (3.0 - 2.0 * x) == 3.0 * sq - 2.0 * (sq * x);
    MulNonneg(c, 1.0 + 2.0 * x);
  }

  /** The Hermite cubic is non-decreasing on [0, 1]. */
  lemma CubicMonotone(a: real, b: real)
    requires 0.0 <= a <= b <= 1.0
    ensures a * a * (3.0 - 2.0 * a) <= b * b * (3.0 - 2.0 * b)
  {
    var k := 3.0 * (a + b) - 2.0 * (a * a + a * b + b * b);
    var a2, b2, ab := a * a, b * b, a * b;
    assert b * b * (3.0 - 2.0 * b) == 3.0 * b2 - 2.0 * (b2 * b);
    assert a * a * (3.0 - 2.0 * a) == 3.0 * a2 - 2.0 * (a2 * a);
    assert (b - a) * (a + b) == b2 - a2;
    assert (b - a) * (a2 + ab + b2) == b2 * b - a2 * a;
    assert (b - a) * k == 3.0 * ((b - a) * (a + b)) - 2.0 * ((b - a) * (a2 + ab + b2));
    assert a2 <= a by { MulBounds(a, a); }
    assert b2 <= b by { MulBounds(b, b); }
    assert ab <= b by { MulBounds(a, b); }
    assert ab <= a by { MulBounds(b, a); assert b * a == a * b; }
    assert k >= 0.0;
    MulNonneg(b - a, k);
  }

  lemma DivNonpos(a: real, w: real)
    requires a <= 0.0 < w
    ensures a / w <= 0.0
  {
  }

  lemma DivAtLeastOne(a: real, w: real)
    requires 0.0 < w <= a
    ensures a / w >= 1.0
  {
    assert a / w >= w / w;
  }

  lemma RatioOutside(value: real, lo: real, hi: real)
    requires lo != hi
    ensures lo < hi && value <= lo ==> (value - lo) / (hi - lo) <= 0.0
    ensures lo < hi && hi <= value ==> (value - lo) / (hi - lo) >= 1.0
  {
    if lo < hi && value <= lo {
      DivNonpos(value - lo, hi - lo);
    }
    if lo < hi && hi <= value {
      DivAtLeastOne(value - lo, hi - lo);
    }
  }

  /** `smoothstep(value, min, max)`: the clamped relative position of `value`
      eased by the Hermite cubic. */
  function Smoothstep(value: real, lo: real, hi: real): (r: real)
    requires lo != hi
    ensures 0.0 <= r <= 1.0
    ensures lo < hi && value <= lo ==> r == 0.0
    ensures lo < hi && hi <= value ==> r == 1.0
  {
    var x := Clamp((value - lo) / (hi - lo), 0.0, 1.0);
    CubicInUnit(x);
    RatioOutside(value, lo, hi);
    x * x * (3.0 - 2.0 * x)
  }

  lemma DivAdd(a: real, b: real, w: real)
    requires w != 0.0
    ensures a / w + b / w == (a + b) / w
  {
    assert (a / w) * w == a && (b / w) * w == b;
    assert (a / w + b / w) * w == a + b;
  }

  /** The Hermite cubic is point-symmetric about (1/2, 1/2). */
  lemma CubicSymmetric(x: real)
    ensures (1.0 - x) * (1.0 - x) * (3.0 - 2.0 * (1.0 - x)) == 1.0 - x * x * (3.0 - 2.0 * x)
  {
    var sq := x * x;
    assert (1.0 - x) * (1.0 - x) == 1.0 - 2.0 * x + sq;
    assert (1.0 - 2.0 * x + sq) * (1.0 + 2.0 * x) == 1.0 - 3.0 * sq + 2.0 * (sq * x);
    assert x * x * (3.0 - 2.0 * x) == 3.0 * sq - 2.0 * (sq * x);
  }

  /** Smoothstep eases in and out alike: reflecting `value` through the middle
      of the interval reflects the result through 1/2. */
  lemma SmoothstepSymmetric(value: real, lo: real, hi: real)
    requires lo != hi
    ensures Smoothstep(lo + hi - value, lo, hi) == 1.0 - Smoothstep(value, lo, hi)
  {
    var w := hi - lo;
    var t := (value - lo) / w;
    var t' := (lo + hi - value - lo) / w;
    DivAdd(value - lo, lo + hi - value - lo, w);
    assert (value - lo) + (lo + hi - value - lo) == w;
    assert w / w == 1.0;
    assert t' == 1.0 - t;
    assert Clamp(t', 0.0, 1.0) == 1.0 - Clamp(t, 0.0, 1.0);
    CubicSymmetric(Clamp(t, 0.0, 1.0));
  }

  /** Halfway through the interval smoothstep is exactly 1/2. */
  lemma SmoothstepMidpoint(lo: real, hi: real)
    requires lo != hi
    ensures Smoothstep((lo + hi) / 2.0, lo, hi) == 0.5
  {
    SmoothstepSymmetric((lo + hi) / 2.0, lo, hi);
    assert lo + hi - (lo + hi) / 2.0 == (lo + hi) / 2.0;
  }

  /** For an increasing interval, smoothstep never decreases as `value` grows. */
  lemma SmoothstepMonotone(v1: real, v2: real, lo: real, hi: real)
    requires lo < hi && v1 <= v2
    ensures Smoothstep(v1, lo, hi) <= Smoothstep(v2, lo, hi)
  {
    var t1 := (v1 - lo) / (hi - lo);
    var t2 := (v2 - lo) / (hi - lo);
    assert t1 <= t2;
    CubicMonotone(Clamp(t1, 0.0, 1.0), Clamp(t2, 0.0, 1.0));
  }

  function Abs(n: int): nat { if n < 0 then -n else n }

  /** `x` and `y` differ by a whole multiple of `m`. */
  ghost predicate Congruent(x: int, y: int, m: int)
    requires m != 0
  {
    (x - y) % m == 0
  }

  lemma MulAtLeast(d: int, m: int)
    requires d >= 1 && m > 0
    ensures d * m >= m
  {
    assert d * m == (d - 1) * m + m;
    assert (d - 1) * m >= 0;
  }

  /** Dafny's `%` is determined by any quotient/remainder pair. */
  lemma DivUnique(x: int, m: int, q: int, r: int)
    requires m != 0 && 0 <= r < Abs(m) && x == q * m + r
    ensures x % m == r
  {
    var q', r' := x / m, x % m;
    assert x == q' * m + r';
    var a := Abs(m);
    var s: int := if m < 0 then -1 else 1;
    assert m == s * a;
    assert (q - q') * m == r' - r;
    var j := (q - q') * s;
    assert j * a == r' - r;
    if j >= 1 {
      MulAtLeast(j, a);
    } else if -j >= 1 {
      MulAtLeast(-j, a);
    }
  }

  lemma CongruentByQuotient(x: int, y: int, m: int, q: int)
    requires m != 0 && x - y == q * m
    ensures Congruent(x, y, m)
  {
    DivUnique(x - y, m, q, 0);
  }

  lemma CongruentHasQuotient(x: int, y: int, m: int)
    requires m != 0 && Congruent(x, y, m)
    ensures x - y == ((x - y) / m) * m
  {
  }

  lemma CongruentQuotient(x: int, y: int, m: int) returns (q: int)
    requires m != 0 && Congruent(x, y, m)
    ensures x - y == q * m
  {
    q := (x - y) / m;
  }

  lemma CongruentTrans(x: int, y: int, z: int, m: int)
    requires m != 0 && Congruent(x, y, m) && Congruent(y, z, m)
    ensures Congruent(x, z, m)
  {
    var q1 := CongruentQuotient(x, y, m);
    var q2 := CongruentQuotient(y, z, m);
    assert x - z == (q1 + q2) * m;
    CongruentByQuotient(x, z, m, q1 + q2);
  }

  /** JavaScript `n % d` on integral numbers: the remainder of the division
      truncated toward zero, so its sign follows the dividend. */
  function Rem(n: int, d: int): (r: int)
    requires d != 0
    ensures Abs(r) < Abs(d)
    ensures 0 <= n ==> 0 <= r
    ensures n <= 0 ==> r <= 0
    ensures Congruent(r, n, d)
  {
    var a := Abs(d);
    var r := if n >= 0 then n % a else -((-n) % a);
    RemProps(n, d, a, r);
    r
  }

  /** Euclidean division of a non-negative `m` by the positive `a`. */
  lemma QuotRem(m: int, a: int) returns (q: int)
    requires 0 <= m && 0 < a
    ensures m == q * a + m % a && 0 <= m % a < a
  {
    q := m / a;
  }

  lemma NegMul(q: int, a: int)
    ensures -(q * a) == (-q) * a
  {
  }

  /** A multiple of `Abs(d)` is a multiple of `d`. */
  lemma CongruentAbs(x: int, y: int, d: int, q: int)
    requires d != 0 && x - y == q * Abs(d)
    ensures Congruent(x, y, d)
  {
    if d < 0 {
      NegMul(q, d);
      assert x - y == (-q) * d;
      CongruentByQuotient(x, y, d, -q);
    } else {
      CongruentByQuotient(x, y, d, q);
    }
  }

  /** The truncated remainder's bounds, sign and congruence. */
  lemma RemProps(n: int, d: int, a: int, r: int)
    requires d != 0 && a == Abs(d)
    requires r == if n >= 0 then n % a else -((-n) % a)
    ensures Abs(r) < Abs(d)
    ensures 0 <= n ==> 0 <= r
    ensures n <= 0 ==> r <= 0
    ensures Congruent(r, n, d)
  {
    if n >= 0 {
      RemOfNonneg(n, d, a);
    } else {
      RemOfNeg(n, d, a);
    }
  }

  lemma RemOfNonneg(n: int, d: int, a: int)
    requires d != 0 && a == Abs(d) && 0 <= n
    ensures 0 <= n % a < a
    ensures Congruent(n % a, n, d)
  {
    var q := QuotRem(n, a);
    var r := n % a;
    assert r - n == -(q * a);
    NegMul(q, a);
    CongruentAbs(r, n, d, -q);
  }

  lemma RemOfNeg(n: int, d: int, a: int)
    requires d != 0 && a == Abs(d) && n < 0
    ensures 0 <= (-n) % a < a
    ensures Congruent(-((-n) % a), n, d)
  {
    var q := QuotRem(-n, a);
    var r := -((-n) % a);
    assert r - n == q * a;
    CongruentAbs(r, n, d, q);
  }

  /** The remainder of `n` by `m` shifted into the sign of `m`, built from two
      truncating remainders. */
  function SafeMod(n: int, m: int): (r: int)
    requires m != 0
    ensures 0 < m ==> 0 <= r < m
    ensures m < 0 ==> m < r <= 0
    ensures Congruent(r, n, m)
  {
    var inner := Rem(n, m);
    var r := Rem(inner + m, m);
    CongruentByQuotient(inner + m, inner, m, 1);
    CongruentTrans(r, inner + m, inner, m);
    CongruentTrans(r, inner, n, m);
    r
  }

  /** For a positive modulus safeMod is the mathematical (Euclidean) modulo. */
  lemma SafeModIsEuclidean(n: int, m: int)
    requires 0 < m
    ensures SafeMod(n, m) == n % m
  {
    var r := SafeMod(n, m);
    var q := CongruentQuotient(r, n, m);
    assert n == (-q) * m + r;
    DivUnique(n, m, -q, r);
  }

  /** `signedModDelta(a, b, mod)`: the step from `a` to `b` on a ring of size
      `mod`, folded into the upper half. `delta > mod / 2` compares against a
      real half, which for integers is `2 * delta > mod`. */
  function SignedModDelta(a: int, b: int, mod: int): (r: int)
    requires mod != 0
    ensures Congruent(a + r, b, mod)
  {
    var delta := Rem(b - a + mod, mod);
    var q := (delta - (b - a + mod)) / mod;
    CongruentHasQuotient(delta, b - a + mod, mod);
    assert a + delta - b == (q + 1) * mod;
    CongruentByQuotient(a + delta, b, mod, q + 1);
    assert a + (delta - mod) - b == q * mod;
    CongruentByQuotient(a + (delta - mod), b, mod, q);
    if 2 * delta > mod then delta - mod else delta
  }

  /** For positions on the ring the delta lies in (-mod/2, mod/2]. */
  lemma SignedModDeltaRange(a: int, b: int, mod: int)
    requires 0 < mod && 0 <= a < mod && 0 <= b < mod
    ensures -mod < 2 * SignedModDelta(a, b, mod) <= mod
  {
    var delta := Rem(b - a + mod, mod);
    assert 0 <= delta < mod;
  }

  /** ... and it is a shortest such step: no other step from `a` that lands
      on `b` modulo `mod` is smaller in magnitude. */
  lemma SignedModDeltaShortest(a: int, b: int, mod: int, k: int)
    requires 0 < mod && 0 <= a < mod && 0 <= b < mod
    requires Congruent(a + k, b, mod)
    ensures Abs(SignedModDelta(a, b, mod)) <= Abs(k)
  {
    var r := SignedModDelta(a, b, mod);
    SignedModDeltaRange(a, b, mod);
    var qk := CongruentQuotient(a + k, b, mod);
    var qr := CongruentQuotient(a + r, b, mod);
    var j := qk - qr;
    assert k - r == j * mod;
    if j >= 1 {
      MulAtLeast(j, mod);
    } else if j <= -1 {
      MulAtLeast(-j, mod);
      assert r - k == (-j) * mod;
    }
  }
}

=== FILE: reveal.dfy ===
/**
 The reveal sequencer (`Reveal`, sources/Game/Reveal.js): a step counter that
 starts at -1, and `updateStep`, which runs the side effects of a step and,
 for steps 0 and 1, chains straight into the next one.

 Every call into a collaborator (grid, view, intro loader, audio, inputs,
 world, server, ticker) is recorded as an `Effect` in a trace, in program
 order. The only collaborator state the model keeps is what changes control
 flow: whether `world.intro` is still present (step 2 sets it to null, and a
 call on null throws a TypeError) and whether the world has cherry trees.
 The write to `this.step` is itself recorded, as `AssignStep`, so the trace
 shows that the assignments of a chain unwind from the innermost step out.
 */
module Reveal {

  datatype Effect =
    | GridShow
    | SetRevealDistance(distance: real)
    | SetZoomSmoothedRatio(ratio: real)
    | SetZoomBaseRatio(ratio: real)
    | IntroSetText
    | IntroSetSoundButton
    /** `ticker.wait(delay, () => world.intro.showLabel())` */
    | WaitThenShowLabel(delay: real)
    | SetSeeThrough(multiplier: real)
    | AudioInit
    | SoundPlay
    | IntroShowLabel
    | IntroHideLabel
    | FiltersClear
    | FiltersAdd(filter: string)
    | SetFocusTracking(on: bool)
    | SetMagnetActive(on: bool)
    | InteractivePointsRecover
    | WorldStep(n: int)
    | GridDestroy
    | IntroDestroy
    /** `world.intro = null` */
    | IntroDetach
    | ServerStart
    /** `ticker.events.off('tick', this.update)` */
    | TickListenerOff
    /** `this.step = step` */
    | AssignStep(step: int)

  /** The parts of the game the sequencer's control flow depends on. */
  datatype Scene = Scene(hasIntro: bool, hasCherryTrees: bool)

  datatype Reveal = Reveal(step: int, scene: Scene)

  /** The outcome of one `updateStep` call: the sequencer afterwards, the
      effects it ran, and whether it ended in a thrown TypeError. */
  datatype Run = Run(after: Reveal, trace: seq<Effect>, threw: bool)

  /** The constructor: the step counter starts at -1. */
  function Create(scene: Scene): (r: Reveal)
    ensures r.step == -1 && r.step !in {0, 1, 2}
    ensures r.scene == scene
  {
    Reveal(-1, scene)
  }

  function CherryTrees(scene: Scene, multiplier: real): seq<Effect> {
    if scene.hasCherryTrees then [SetSeeThrough(multiplier)] else []
  }

  /** Step 0 up to its first call on the intro loader. */
  const Step0Head: seq<Effect> :=
    [GridShow, SetRevealDistance(3.5), SetZoomSmoothedRatio(0.3), SetZoomBaseRatio(0.3)]

  /** The rest of step 0, from the first call on the intro loader. */
  function Step0Tail(scene: Scene): seq<Effect> {
    [IntroSetText, IntroSetSoundButton, WaitThenShowLabel(1.0)] + CherryTrees(scene, 0.5)
  }

  /** Step 1 up to its call on the intro loader. */
  const Step1Head: seq<Effect> := [AudioInit, SoundPlay, SetRevealDistance(99999.0)]

  /** The rest of step 1, from its call on the intro loader. */
  function Step1Tail(scene: Scene): seq<Effect> {
    [IntroHideLabel] + Step1Filters + Step1View + CherryTrees(scene, 1.0)
  }

  /** `inputs.filters.clear()` then `inputs.filters.add('wandering')`. */
  const Step1Filters: seq<Effect> := [FiltersClear, FiltersAdd("wandering")]

  /** Focus tracking on, magnet off, base zoom ratio 0. */
  const Step1View: seq<Effect> :=
    [SetFocusTracking(true), SetMagnetActive(false), SetZoomBaseRatio(0.0)]

  /** Step 2 up to its call on the intro loader. */
  const Step2Head: seq<Effect> := [InteractivePointsRecover, WorldStep(2), GridDestroy]

  /** The rest of step 2, from its call on the intro loader. */
  const Step2Tail: seq<Effect> := [IntroDestroy, IntroDetach, ServerStart, TickListenerOff]

  function Step0Block(scene: Scene): seq<Effect> { Step0Head + Step0Tail(scene) }
  function Step1Block(scene: Scene): seq<Effect> { Step1Head + Step1Tail(scene) }
  const Step2Block: seq<Effect> := Step2Head + Step2Tail

  /** Rank of a step in the chain 0 -> 1 -> 2, for termination. */
  function ChainLength(k: int): nat {
    if k == 0 then 2 else if k == 1 then 1 else 0
  }

  /** `updateStep(k)`. A call on the intro loader while `world.intro` is null
      throws; the exception skips everything after it, including the
      `this.step = step` of every call still on the stack. Otherwise the
      counter ends at `k` itself: the assignment runs after the nested call
      returns, so whatever the nested call wrote is overwritten. */
  function UpdateStep(r: Reveal, k: int): (run: Run)
    ensures run.threw ==> run.after.step == r.step
    ensures !run.threw ==> run.after.step == k
    ensures run.threw <==> (k in {0, 1, 2} && !r.scene.hasIntro)
    ensures run.after.scene.hasCherryTrees == r.scene.hasCherryTrees
    ensures run.after.scene.hasIntro == (r.scene.hasIntro && k !in {0, 1, 2})
    decreases ChainLength(k)
  {
    var scene := r.scene;
    if k == 0 then
      if !scene.hasIntro then Run(r, Step0Head, true)
      else Chain(Step0Block(scene), UpdateStep(r, 1), 0)
    else if k == 1 then
      if !scene.hasIntro then Run(r, Step1Head, true)
      else Chain(Step1Block(scene), UpdateStep(r, 2), 1)
    else if k == 2 then
      if !scene.hasIntro then Run(r, Step2Head, true)
      else Run(Reveal(2, scene.(hasIntro := false)), Step2Block + [AssignStep(2)], false)
    else
      Run(r.(step := k), [AssignStep(k)], false)
  }

  /** A step that ran `block` and then the nested call `next`: a throw in the
      nested call propagates and skips this step's assignment. */
  function Chain(block: seq<Effect>, next: Run, k: int): (run: Run)
    ensures run.threw == next.threw && run.after.scene == next.after.scene
    ensures run.threw ==> run.after == next.after && run.trace == block + next.trace
    ensures !run.threw ==> run.after.step == k && run.trace == block + next.trace + [AssignStep(k)]
  {
    if next.threw then Run(next.after, block + next.trace, true)
    else Run(next.after.(step := k), block + next.trace + [AssignStep(k)], false)
  }

  /** From a fresh scene, `updateStep(0)` runs the step-0, step-1 and step-2
      blocks once each and in that order, then the three assignments from
      the innermost out, and leaves the counter at 0, not 2. */
  lemma ChainFromZero(r: Reveal)
    requires r.scene.hasIntro
    ensures UpdateStep(r, 0) ==
      Run(Reveal(0, r.scene.(hasIntro := false)),
          Step0Block(r.scene) + Step1Block(r.scene) + Step2Block
          + [AssignStep(2), AssignStep(1), AssignStep(0)],
          false)
  {
    var run1 := UpdateStep(r, 1);
    assert run1.trace == Step1Block(r.scene) + Step2Block + [AssignStep(2)] + [AssignStep(1)];
  }

  /** `updateStep(1)` runs the step-1 block, then the step-2 block. */
  lemma ChainFromOne(r: Reveal)
    requires r.scene.hasIntro
    ensures UpdateStep(r, 1) ==
      Run(Reveal(1, r.scene.(hasIntro := false)),
          Step1Block(r.scene) + Step2Block + [AssignStep(2), AssignStep(1)],
          false)
  {
    assert UpdateStep(r, 2).trace == Step2Block + [AssignStep(2)];
  }

  /** Any value other than 0, 1 and 2 runs no effect and is stored as it is:
      there is no guard keeping the counter monotone. */
  lemma UnknownStep(r: Reveal, k: int)
    requires k !in {0, 1, 2}
    ensures UpdateStep(r, k) == Run(r.(step := k), [AssignStep(k)], false)
    ensures k < r.step ==> UpdateStep(r, k).after.step < r.step
  {
  }

  /** How many times `e` occurs in a trace. */
  function Count(trace: seq<Effect>, e: Effect): nat {
    if |trace| == 0 then 0
    else (if trace[0] == e then 1 else 0) + Count(trace[1..], e)
  }

  lemma {:induction false} CountAppend(a: seq<Effect>, b: seq<Effect>, e: Effect)
    ensures Count(a + b, e) == Count(a, e) + Count(b, e)
    decreases |a|
  {
    if |a| == 0 {
      assert a + b == b;
    } else {
      assert (a + b)[0] == a[0];
      assert (a + b)[1..] == a[1..] + b;
      CountAppend(a[1..], b, e);
    }
  }

  lemma {:induction false} CountAbsent(trace: seq<Effect>, e: Effect)
    requires e !in trace
    ensures Count(trace, e) == 0
    decreases |trace|
  {
    if |trace| > 0 {
      assert trace[0] != e;
      assert forall x :: x in trace[1..] ==> x in trace;
      CountAbsent(trace[1..], e);
    }
  }

  /** The effects that only the step-2 branch runs. */
  predicate StepTwoOnly(e: Effect) {
    e == ServerStart || e == TickListenerOff || e == IntroDestroy || e == IntroDetach
  }

  /** The step-0 and step-1 blocks and the part of step 2 before its call on
      the intro loader run none of the step-2-only effects. */
  lemma StepTwoOnlyOutsideBlocks(scene: Scene, e: Effect)
    requires StepTwoOnly(e)
    ensures Count(Step0Block(scene), e) == 0 && Count(Step1Block(scene), e) == 0
    ensures Count(Step0Head, e) == 0 && Count(Step1Head, e) == 0 && Count(Step2Head, e) == 0
  {
    StepTwoOnlyOutsideBlock0(scene, e);
    StepTwoOnlyOutsideBlock1(scene, e);
    NotInStep2Head(e);
    CountAbsent(Step2Head, e);
  }

  lemma StepTwoOnlyOutsideBlock0(scene: Scene, e: Effect)
    requires StepTwoOnly(e)
    ensures Count(Step0Block(scene), e) == 0 && Count(Step0Head, e) == 0
  {
    NotInStep0(scene, e);
    CountAbsent(Step0Block(scene), e);
    CountAbsent(Step0Head, e);
  }

  lemma StepTwoOnlyOutsideBlock1(scene: Scene, e: Effect)
    requires StepTwoOnly(e)
    ensures Count(Step1Block(scene), e) == 0 && Count(Step1Head, e) == 0
  {
    NotInStep1(scene, e);
    CountAbsent(Step1Block(scene), e);
    CountAbsent(Step1Head, e);
  }

  lemma NotInStep0(scene: Scene, e: Effect)
    requires StepTwoOnly(e)
    ensures e !in Step0Block(scene)
  {
    assert e !in Step0Head;
    assert e !in Step0Tail(scene);
  }

  lemma NotInStep1(scene: Scene, e: Effect)
    requires StepTwoOnly(e)
    ensures e !in Step1Block(scene)
  {
    assert e !in Step1Head;
    assert e !in Step1Tail(scene);
  }

  /** A completed step-2 branch runs each step-2-only effect once. */
  lemma StepTwoBlockOnce(e: Effect)
    requires StepTwoOnly(e)
    ensures Count(Step2Block + [AssignStep(2)], e) == 1
  {
    CountAppend(Step2Block, [AssignStep(2)], e);
    CountAppend(Step2Head, Step2Tail, e);
    NotInStep2Head(e);
    CountAbsent(Step2Head, e);
    CountAbsent([AssignStep(2)], e);
    StepTwoTailOnce(e);
  }

  lemma NotInStep2Head(e: Effect)
    requires StepTwoOnly(e)
    ensures e !in Step2Head
  {
  }

  /** Each step-2-only effect occurs once in the rest of step 2. */
  lemma StepTwoTailOnce(e: Effect)
    requires StepTwoOnly(e)
    ensures Count(Step2Tail, e) == 1
  {
    var t := Step2Tail;
    var i := if e == IntroDestroy then 0 else if e == IntroDetach then 1
             else if e == ServerStart then 2 else 3;
    assert t[i] == e;
    assert t == t[..i] + [e] + t[i + 1..];
    assert e !in t[..i] && e !in t[i + 1..];
    CountAppend(t[..i] + [e], t[i + 1..], e);
    CountAppend(t[..i], [e], e);
    CountAbsent(t[..i], e);
    CountAbsent(t[i + 1..], e);
  }

  /** Counting over a chained call: the outer block, the nested run, and the
      outer assignment. */
  lemma CountChain(block: seq<Effect>, inner: seq<Effect>, k: int, e: Effect)
    requires Count(block, e) == 0 && e != AssignStep(k)
    ensures Count(block + inner + [AssignStep(k)], e) == Count(inner, e)
    ensures Count(block + inner, e) == Count(inner, e)
  {
    CountAppend(block + inner, [AssignStep(k)], e);
    CountAppend(block, inner, e);
    CountAbsent([AssignStep(k)], e);
  }

  /** The server is started and the tick listener removed only by a call that
      completes the step-2 branch, and then exactly once each. */
  lemma ServerStartOnce(r: Reveal, k: int, e: Effect)
    requires StepTwoOnly(e)
    ensures var run := UpdateStep(r, k);
      Count(run.trace, e) == if run.threw || k !in {0, 1, 2} then 0 else 1
  {
    if !r.scene.hasIntro || k !in {0, 1, 2} {
      ServerStartNone(r, k, e);
    } else if k == 0 {
      ServerStartFromZero(r, e);
    } else if k == 1 {
      ServerStartFromOne(r, e);
    } else {
      ServerStartFromTwo(r, e);
    }
  }

  lemma ServerStartNone(r: Reveal, k: int, e: Effect)
    requires StepTwoOnly(e)
    requires !r.scene.hasIntro || k !in {0, 1, 2}
    ensures Count(UpdateStep(r, k).trace, e) == 0
  {
    var trace := UpdateStep(r, k).trace;
    if k !in {0, 1, 2} {
      assert trace == [AssignStep(k)];
      CountAbsent(trace, e);
    } else {
      assert trace in {Step0Head, Step1Head, Step2Head};
      assert e !in trace;
      CountAbsent(trace, e);
    }
  }

  lemma ServerStartFromTwo(r: Reveal, e: Effect)
    requires StepTwoOnly(e) && r.scene.hasIntro
    ensures Count(UpdateStep(r, 2).trace, e) == 1
  {
    StepTwoBlockOnce(e);
  }

  lemma ServerStartFromOne(r: Reveal, e: Effect)
    requires StepTwoOnly(e) && r.scene.hasIntro
    ensures Count(UpdateStep(r, 1).trace, e) == 1
  {
    StepTwoOnlyOutsideBlocks(r.scene, e);
    ServerStartFromTwo(r, e);
    CountChain(Step1Block(r.scene), UpdateStep(r, 2).trace, 1, e);
  }

  lemma ServerStartFromZero(r: Reveal, e: Effect)
    requires StepTwoOnly(e) && r.scene.hasIntro
    ensures Count(UpdateStep(r, 0).trace, e) == 1
  {
    StepTwoOnlyOutsideBlocks(r.scene, e);
    ServerStartFromOne(r, e);
    CountChain(Step0Block(r.scene), UpdateStep(r, 1).trace, 0, e);
  }

  /** The input filter set after `e`. */
  function ApplyFilter(filters: set<string>, e: Effect): set<string> {
    match e
    case FiltersClear => {}
    case FiltersAdd(f) => filters + {f}
    case _ => filters
  }

  /** The input filter set after the effects of a trace, in order. */
  function Filters(start: set<string>, trace: seq<Effect>): set<string>
    decreases |trace|
  {
    if |trace| == 0 then start else Filters(ApplyFilter(start, trace[0]), trace[1..])
  }

  predicate NoFilter(trace: seq<Effect>) {
    forall i :: 0 <= i < |trace| ==> !trace[i].FiltersClear? && !trace[i].FiltersAdd?
  }

  lemma {:induction false} FiltersAppend(start: set<string>, a: seq<Effect>, b: seq<Effect>)
    ensures Filters(start, a + b) == Filters(Filters(start, a), b)
    decreases |a|
  {
    if |a| == 0 {
      assert a + b == b;
    } else {
      assert (a + b)[0] == a[0];
      assert (a + b)[1..] == a[1..] + b;
      FiltersAppend(ApplyFilter(start, a[0]), a[1..], b);
    }
  }

  /** Effects that touch no filter leave the filter set alone. */
  lemma {:induction false} FiltersUntouched(start: set<string>, trace: seq<Effect>)
    requires NoFilter(trace)
    ensures Filters(start, trace) == start
    decreases |trace|
  {
    if |trace| > 0 {
      assert NoFilter(trace[1..]) by {
        forall i | 0 <= i < |trace[1..]|
          ensures !trace[1..][i].FiltersClear? && !trace[1..][i].FiltersAdd?
        {
          assert trace[1..][i] == trace[i + 1];
        }
      }
      FiltersUntouched(start, trace[1..]);
    }
  }

  /** The step-1 block leaves exactly `{'wandering'}`, whatever came before. */
  lemma StepOneFilters(start: set<string>, scene: Scene)
    ensures Filters(start, Step1Block(scene)) == {"wandering"}
  {
    var cherry := CherryTrees(scene, 1.0);
    FiltersAppend(start, Step1Head, Step1Tail(scene));
    FiltersUntouched(start, Step1Head);
    var x := Filters(start, Step1Head);
    FiltersAppend(x, [IntroHideLabel] + Step1Filters + Step1View, cherry);
    FiltersAppend(x, [IntroHideLabel] + Step1Filters, Step1View);
    FiltersAppend(x, [IntroHideLabel], Step1Filters);
    assert Filters(x, [IntroHideLabel]) == x;
    var f := Step1Filters;
    assert f[1..][1..] == [];
    assert Filters(x, Step1Filters) == {"wandering"};
    FiltersUntouched({"wandering"}, Step1View);
    FiltersUntouched({"wandering"}, cherry);
  }

  /** Whatever filters were active before, a completed step-1 branch leaves
      exactly `{'wandering'}`: it clears them and adds one. */
  lemma FiltersAfterStepOne(r: Reveal, k: int, start: set<string>)
    requires k == 0 || k == 1
    requires r.scene.hasIntro
    ensures Filters(start, UpdateStep(r, k).trace) == {"wandering"}
  {
    var w: set<string> := {"wandering"};
    var before := if k == 0 then Filters(start, Step0Block(r.scene)) else start;
    var assigns := if k == 0 then [AssignStep(2), AssignStep(1), AssignStep(0)]
                   else [AssignStep(2), AssignStep(1)];
    StepOneFilters(before, r.scene);
    FiltersUntouched(w, Step2Block);
    FiltersUntouched(w, assigns);
    if k == 0 {
      ChainFromZero(r);
      FiltersAppend(start, Step0Block(r.scene) + Step1Block(r.scene) + Step2Block, assigns);
      FiltersAppend(start, Step0Block(r.scene) + Step1Block(r.scene), Step2Block);
      FiltersAppend(start, Step0Block(r.scene), Step1Block(r.scene));
    } else {
      ChainFromOne(r);
      FiltersAppend(start, Step1Block(r.scene) + Step2Block, assigns);
      FiltersAppend(start, Step1Block(r.scene), Step2Block);
    }
  }

  /** Step 0 schedules exactly one delayed `showLabel`, one second out, after
      showing the grid and setting the reveal distance and both zoom ratios. */
  lemma DelayedLabelOnce(r: Reveal, d: real)
    requires r.scene.hasIntro
    ensures var trace := UpdateStep(r, 0).trace;
      trace[..4] == [GridShow, SetRevealDistance(3.5), SetZoomSmoothedRatio(0.3), SetZoomBaseRatio(0.3)]
      && Count(trace, WaitThenShowLabel(d)) == if d == 1.0 then 1 else 0
  {
    ChainFromZero(r);
    var e := WaitThenShowLabel(d);
    var scene := r.scene;
    var assigns := [AssignStep(2), AssignStep(1), AssignStep(0)];
    var later := Step1Block(scene) + Step2Block + assigns;
    assert UpdateStep(r, 0).trace == Step0Block(scene) + later;
    CountAppend(Step0Block(scene), later, e);
    StepZeroLabel(scene, d);
    LabelNotLater(scene, d);
    CountAbsent(later, e);
  }

  /** No block after step 0 schedules the label. */
  lemma LabelNotLater(scene: Scene, d: real)
    ensures WaitThenShowLabel(d) !in Step1Block(scene) + Step2Block + [AssignStep(2), AssignStep(1), AssignStep(0)]
  {
    var e := WaitThenShowLabel(d);
    assert e !in Step1Head;
    assert e !in Step1Tail(scene);
    assert e !in Step2Head;
    assert e !in Step2Tail;
  }

  /** Within step 0 itself the label is scheduled once. */
  lemma StepZeroLabel(scene: Scene, d: real)
    ensures Count(Step0Block(scene), WaitThenShowLabel(d)) == if d == 1.0 then 1 else 0
  {
    var e := WaitThenShowLabel(d);
    CountAppend(Step0Head, Step0Tail(scene), e);
    var labels := [IntroSetText, IntroSetSoundButton, WaitThenShowLabel(1.0)];
    CountAppend(labels, CherryTrees(scene, 0.5), e);
    assert Count(labels[1..][1..], e) == if d == 1.0 then 1 else 0 by {
      assert labels[1..][1..] == [WaitThenShowLabel(1.0)];
      assert labels[1..][1..][1..] == [];
    }
    CountAbsent(Step0Head, e);
    CountAbsent(CherryTrees(scene, 0.5), e);
  }

  /** The delayed callback of step 0, `() => world.intro.showLabel()`, as it
      is written: it throws when `world.intro` is null by the time it fires. */
  function FireShowLabel(scene: Scene): (run: (seq<Effect>, bool))
    ensures run.1 <==> !scene.hasIntro
    ensures !run.1 ==> run.0 == [IntroShowLabel]
  {
    if scene.hasIntro then ([IntroShowLabel], false) else ([], true)
  }

  /** The chain started by step 0 finishes synchronously, so by the time the
      one-second callback fires the intro loader has already been detached
      and the callback, as written, throws. */
  lemma ShowLabelAfterChainThrows(r: Reveal)
    requires r.scene.hasIntro
    ensures var run := UpdateStep(r, 0);
      !run.threw && Count(run.trace, WaitThenShowLabel(1.0)) == 1
      && FireShowLabel(run.after.scene).1
  {
    DelayedLabelOnce(r, 1.0);
  }

  /** The callback guarded on the intro loader still being there: it shows
      the label when it can and does nothing otherwise. */
  function FireShowLabelGuarded(scene: Scene): (run: (seq<Effect>, bool))
    ensures !run.1
    ensures scene.hasIntro ==> run == FireShowLabel(scene)
    ensures !scene.hasIntro ==> run.0 == []
  {
    if scene.hasIntro then FireShowLabel(scene) else ([], false)
  }
}

=== FILE: whisper_modal.dfy ===
/**
 The text handling of the whisper modal (`Whispers.setModal`,
 sources/Game/World/Whispers.js): the typed message is trimmed and cut to the
 instance count before it is shown as a preview.

 `String.prototype.trim` removes leading and trailing WhiteSpace and
 LineTerminator code points (sections 12.2 and 12.3 of ECMA-262).
 */
module WhisperModal {
  import Whispers

  /** Preview text shown while the input is empty. */
  const Placeholder: string := "Your message here"

  /** A code point `trim` removes: TAB, VT, FF, ZWNBSP, the space separators
      (category Zs) and the four line terminators. */
  predicate IsTrimmed(c: char) {
    var n := c as int;
    || n == 0x09 || n == 0x0B || n == 0x0C || n == 0xFEFF
    || n == 0x20 || n == 0xA0 || n == 0x1680 || (0x2000 <= n <= 0x200A)
    || n == 0x202F || n == 0x205F || n == 0x3000
    || n == 0x0A || n == 0x0D || n == 0x2028 || n == 0x2029
  }

  ghost predicate AllTrimmed(s: string) {
    forall i :: 0 <= i < |s| ==> IsTrimmed(s[i])
  }

  /** The number of leading trimmable code points. */
  function Lead(s: string): (n: nat)
    ensures n <= |s|
    ensures forall i :: 0 <= i < n ==> IsTrimmed(s[i])
    ensures n < |s| ==> !IsTrimmed(s[n])
  {
    if |s| > 0 && IsTrimmed(s[0]) then 1 + Lead(s[1..]) else 0
  }

  /** The number of trailing trimmable code points. */
  function Trail(s: string): (n: nat)
    ensures n <= |s|
    ensures forall i :: |s| - n <= i < |s| ==> IsTrimmed(s[i])
    ensures n < |s| ==> !IsTrimmed(s[|s| - 1 - n])
  {
    if |s| > 0 && IsTrimmed(s[|s| - 1]) then 1 + Trail(s[..|s| - 1]) else 0
  }

  /** `value.trim()`: the part of `value` from its first non-trimmable code
      point through its last one, or the empty string when there is none. */
  function Trim(s: string): (r: string)
    ensures Lead(s) + |r| <= |s| && r == s[Lead(s)..Lead(s) + |r|]
    ensures forall i :: Lead(s) + |r| <= i < |s| ==> IsTrimmed(s[i])
    ensures |r| > 0 ==> !IsTrimmed(s[Lead(s) + |r| - 1])
    ensures |r| == 0 <==> AllTrimmed(s)
  {
    if Lead(s) == |s| then [] else s[Lead(s)..|s| - Trail(s)]
  }

  /** `value.substring(0, this.count)`: at most `count` leading code points. */
  function Truncate(s: string): (r: string)
    ensures |r| <= Whispers.Count && |r| <= |s| && r == s[..|r|]
    ensures |s| <= Whispers.Count ==> r == s
    ensures |s| > Whispers.Count ==> |r| == Whispers.Count
  {
    if |s| <= Whispers.Count then s else s[..Whispers.Count]
  }

  /** The sanitised message: trimmed, then cut to the instance count. It is a
      prefix of the trimmed input, no longer than the instance count, and empty
      exactly when the input is only whitespace. */
  function Sanitize(value: string): (r: string)
    ensures |r| <= Whispers.Count && |r| <= |Trim(value)| && r == Trim(value)[..|r|]
    ensures |Trim(value)| <= Whispers.Count ==> r == Trim(value)
    ensures |Trim(value)| > Whispers.Count ==> |r| == Whispers.Count
    ensures |r| == 0 <==> AllTrimmed(value)
  {
    Truncate(Trim(value))
  }

  /** The preview text set on each `input` event: the sanitised message, or the
      placeholder when that is empty. */
  function Preview(value: string): (r: string)
    ensures AllTrimmed(value) ==> r == Placeholder
    ensures !AllTrimmed(value) ==> r == Sanitize(value) && 0 < |r| <= Whispers.Count
  {
    var sanitized := Sanitize(value);
    if |sanitized| > 0 then sanitized else Placeholder
  }

  /** Trimming an already trimmed string changes nothing. */
  lemma TrimIdempotent(s: string)
    ensures Trim(Trim(s)) == Trim(s)
  {
    var t := Trim(s);
    if |t| > 0 {
      assert !IsTrimmed(t[0]) by {
        assert t[0] == s[Lead(s)];
      }
      assert !IsTrimmed(t[|t| - 1]) by {
        assert t[|t| - 1] == s[Lead(s) + |t| - 1];
      }
      assert Lead(t) == 0 && Trail(t) == 0;
    }
  }

  /** Cutting a message twice is cutting it once (the preview's own `input`
      handler cuts the text it already holds). */
  lemma TruncateIdempotent(s: string)
    ensures Truncate(Truncate(s)) == Truncate(s)
  {
  }
}

=== FILE: whisper_store.dfy ===
/**
 The whisper collection of `Whispers.setData` (sources/Game/World/Whispers.js):
 a JavaScript `Map` from whisper id to a mutable item object, folded from the
 server's records by `upsert` and `delete`, plus the `needsUpdate` flag both
 of them raise.

 The `Map` is a sequence of entries in insertion order, the iteration order
 of section 24.1 of ECMA-262 (Map Objects): a new key goes to the end, a `set`
 on an existing key keeps its place, a `delete` closes the gap. Keys are
 compared by value. An item object's identity is its `ref`, drawn from
 `nextRef`: updating an item in place keeps its identity, while deleting and
 re-inserting an id creates a new object.
 */
module WhisperStore {
  import opened Wrappers

  type Id = string

  /** Object identity of an item. */
  type Ref = nat

  datatype Vec3 = Vec3(x: real, y: real, z: real)

  /** An item object `{ message, position }` together with its identity. */
  datatype Item = Item(ref: Ref, message: string, position: Vec3)

  datatype Entry = Entry(id: Id, item: Item)

  /** A whisper record `{ id, message, x, y, z }` as the server sends it. */
  datatype Record = Record(id: Id, message: string, x: real, y: real, z: real)

  /** `this.data`: the item map and its rebuild flag. */
  datatype Store = Store(entries: seq<Entry>, nextRef: Ref, needsUpdate: bool)

  /** `setData`: an empty map and a clear flag. */
  const Empty: Store := Store([], 0, false)

  function PositionOf(r: Record): Vec3 {
    Vec3(r.x, r.y, r.z)
  }

  /** The item fields an upsert overwrites, with the identity kept. */
  function Overwrite(it: Item, r: Record): Item {
    it.(message := r.message, position := PositionOf(r))
  }

  ghost predicate UniqueIds(es: seq<Entry>) {
    forall i, j :: 0 <= i < j < |es| ==> es[i].id != es[j].id
  }

  ghost predicate UniqueRefs(es: seq<Entry>) {
    forall i, j :: 0 <= i < j < |es| ==> es[i].item.ref != es[j].item.ref
  }

  /** Representation invariant: a key occurs once, two live items are two
      distinct objects, and every live object was allocated before `nextRef`. */
  ghost predicate Valid(s: Store) {
    && UniqueIds(s.entries)
    && UniqueRefs(s.entries)
    && forall i :: 0 <= i < |s.entries| ==> s.entries[i].item.ref < s.nextRef
  }

  ghost predicate HasId(es: seq<Entry>, id: Id) {
    exists i :: 0 <= i < |es| && es[i].id == id
  }

  /** The position of `id` in iteration order, as `Map.prototype.get` finds it. */
  function IndexOf(es: seq<Entry>, id: Id): (r: Option<nat>)
    ensures r.Some? ==> r.value < |es| && es[r.value].id == id
    ensures r.Some? ==> forall j :: 0 <= j < r.value ==> es[j].id != id
    ensures r.None? <==> forall j :: 0 <= j < |es| ==> es[j].id != id
  {
    if |es| == 0 then None
    else if es[0].id == id then Some(0)
    else match IndexOf(es[1..], id)
      case None => None
      case Some(k) => Some(k + 1)
  }

  /** `items.get(id)`. */
  function Get(es: seq<Entry>, id: Id): Option<Item> {
    match IndexOf(es, id)
    case None => None
    case Some(i) => Some(es[i].item)
  }

  /** With unique keys the entry found for `id` is the only one. */
  lemma IndexOfUnique(es: seq<Entry>, i: nat)
    requires UniqueIds(es) && i < |es|
    ensures IndexOf(es, es[i].id) == Some(i)
  {
  }

  /** `data.upsert(input)`: overwrite message and position of the existing
      item in place, or append a new item at the end of iteration order. */
  function Upsert(s: Store, r: Record): (s': Store)
    requires Valid(s)
    ensures Valid(s')
    ensures s'.needsUpdate
    ensures (forall j :: 0 <= j < |s.entries| ==> s.entries[j].id != r.id) ==>
              && s'.entries == s.entries + [Entry(r.id, Item(s.nextRef, r.message, PositionOf(r)))]
              && s'.nextRef == s.nextRef + 1
    ensures forall i :: 0 <= i < |s.entries| && s.entries[i].id == r.id ==>
              && |s'.entries| == |s.entries|
              && s'.entries[i] == Entry(r.id, Overwrite(s.entries[i].item, r))
              && (forall j :: 0 <= j < |s.entries| && j != i ==> s'.entries[j] == s.entries[j])
              && s'.nextRef == s.nextRef
  {
    match IndexOf(s.entries, r.id)
    case Some(i) =>
      Store(s.entries[i := Entry(r.id, Overwrite(s.entries[i].item, r))], s.nextRef, true)
    case None =>
      Store(s.entries + [Entry(r.id, Item(s.nextRef, r.message, PositionOf(r)))], s.nextRef + 1, true)
  }

  /** `data.delete(input)`: remove the entry of `id` if there is one, keep the
      others in their order, and raise the flag either way. */
  function Delete(s: Store, id: Id): (s': Store)
    requires Valid(s)
    ensures Valid(s')
    ensures s'.needsUpdate && s'.nextRef == s.nextRef
    ensures (forall j :: 0 <= j < |s.entries| ==> s.entries[j].id != id) ==> s'.entries == s.entries
    ensures forall i :: 0 <= i < |s.entries| && s.entries[i].id == id ==>
              s'.entries == s.entries[..i] + s.entries[i + 1..]
  {
    match IndexOf(s.entries, id)
    case None => s.(needsUpdate := true)
    case Some(i) =>
      SqueezeValid(s, i);
      Store(s.entries[..i] + s.entries[i + 1..], s.nextRef, true)
  }

  /** Squeezing one entry out of a valid map keeps it valid. */
  lemma SqueezeValid(s: Store, i: nat)
    requires Valid(s) && i < |s.entries|
    ensures Valid(Store(s.entries[..i] + s.entries[i + 1..], s.nextRef, true))
  {
    var es := s.entries[..i] + s.entries[i + 1..];
    assert forall j :: 0 <= j < |es| ==> es[j] == s.entries[if j < i then j else j + 1];
  }

  /** Where an upsert leaves its record: the existing entry, or the new last one. */
  function UpsertSlot(s: Store, r: Record): (p: nat)
    requires Valid(s)
    ensures p < |Upsert(s, r).entries|
    ensures Upsert(s, r).entries[p] == Entry(r.id, Item(Upsert(s, r).entries[p].item.ref, r.message, PositionOf(r)))
  {
    match IndexOf(s.entries, r.id)
    case Some(i) => i
    case None => |s.entries|
  }

  /** An upsert keeps every existing key in its place with its identity, and
      leaves the entries of other keys alone. */
  lemma UpsertKeeps(s: Store, r: Record, i: nat)
    requires Valid(s) && i < |s.entries|
    ensures |s.entries| <= |Upsert(s, r).entries|
    ensures Upsert(s, r).entries[i].id == s.entries[i].id
    ensures Upsert(s, r).entries[i].item.ref == s.entries[i].item.ref
    ensures s.entries[i].id != r.id ==> Upsert(s, r).entries[i] == s.entries[i]
  {
  }

  /** After an upsert the key maps to the record's message and position, and
      every other key maps to what it did before. */
  lemma UpsertGet(s: Store, r: Record, id: Id)
    requires Valid(s)
    ensures id == r.id ==> Get(Upsert(s, r).entries, id).Some?
    ensures id == r.id ==> Get(Upsert(s, r).entries, id).value.message == r.message
    ensures id == r.id ==> Get(Upsert(s, r).entries, id).value.position == PositionOf(r)
    ensures id != r.id ==> Get(Upsert(s, r).entries, id) == Get(s.entries, id)
  {
    var s' := Upsert(s, r);
    match IndexOf(s.entries, r.id)
    case Some(i) =>
      IndexOfUnique(s'.entries, i);
      if id != r.id {
        match IndexOf(s.entries, id)
        case Some(k) => IndexOfUnique(s'.entries, k);
        case None =>
      }
    case None =>
      IndexOfUnique(s'.entries, |s.entries|);
      if id != r.id {
        match IndexOf(s.entries, id)
        case Some(k) => IndexOfUnique(s'.entries, k);
        case None =>
      }
  }

  /** After a delete the key is gone and every other key is untouched. */
  lemma DeleteGet(s: Store, d: Id, id: Id)
    requires Valid(s)
    ensures id == d ==> Get(Delete(s, d).entries, id) == None
    ensures id != d ==> Get(Delete(s, d).entries, id) == Get(s.entries, id)
  {
    match IndexOf(s.entries, d)
    case None =>
    case Some(i) =>
      var es := Delete(s, d).entries;
      DeleteShift(s, d, i);
      if id == d {
        assert forall j :: 0 <= j < |es| ==> es[j].id != id;
      } else {
        match IndexOf(s.entries, id)
        case None =>
          assert forall j :: 0 <= j < |es| ==> es[j].id != id;
        case Some(k) =>
          var k' := if k < i then k else k - 1;
          assert es[k'] == s.entries[k];
          IndexOfUnique(es, k');
      }
  }

  /** The entries after a delete are the old ones with slot `i` squeezed out. */
  lemma DeleteShift(s: Store, d: Id, i: nat)
    requires Valid(s) && IndexOf(s.entries, d) == Some(i)
    ensures |Delete(s, d).entries| == |s.entries| - 1
    ensures UniqueIds(Delete(s, d).entries)
    ensures forall j :: 0 <= j < |Delete(s, d).entries| ==>
              Delete(s, d).entries[j] == s.entries[if j < i then j else j + 1]
  {
    var es := s.entries[..i] + s.entries[i + 1..];
    assert Delete(s, d).entries == es;
    assert forall j :: 0 <= j < |es| ==> es[j] == s.entries[if j < i then j else j + 1];
  }


  /** Replaying an upsert leaves the map exactly as the first one left it. */
  lemma UpsertReplay(s: Store, r: Record)
    requires Valid(s)
    ensures Upsert(Upsert(s, r), r) == Upsert(s, r)
  {
    var s1 := Upsert(s, r);
    match IndexOf(s.entries, r.id)
    case Some(i) =>
      IndexOfUnique(s1.entries, i);
    case None =>
      IndexOfUnique(s1.entries, |s.entries|);
  }

  /** Deleting an id twice is the same as deleting it once. */
  lemma DeleteReplay(s: Store, id: Id)
    requires Valid(s)
    ensures Delete(Delete(s, id), id) == Delete(s, id)
  {
    DeleteGet(s, id, id);
  }

  /** The keys a batch of records names. */
  function Ids(rs: seq<Record>): set<Id> {
    set k | 0 <= k < |rs| :: rs[k].id
  }

  /** Applies a batch of records to the map one upsert at a time, in the
      batch's order. */
  function UpsertAll(s: Store, rs: seq<Record>): (s': Store)
    requires Valid(s)
    ensures Valid(s')
    ensures s'.needsUpdate == (s.needsUpdate || |rs| > 0)
    ensures s.nextRef <= s'.nextRef
    decreases |rs|
  {
    if |rs| == 0 then s else UpsertAll(Upsert(s, rs[0]), rs[1..])
  }

  /** A batch of upserts keeps every existing key in its place, with the
      same object behind it. */
  lemma {:induction false} UpsertAllKeepsKeys(s: Store, rs: seq<Record>)
    requires Valid(s)
    ensures |s.entries| <= |UpsertAll(s, rs).entries|
    ensures forall i :: 0 <= i < |s.entries| ==>
              && UpsertAll(s, rs).entries[i].id == s.entries[i].id
              && UpsertAll(s, rs).entries[i].item.ref == s.entries[i].item.ref
    decreases |rs|
  {
    if |rs| > 0 {
      var s1 := Upsert(s, rs[0]);
      UpsertAllKeepsKeys(s1, rs[1..]);
      forall i | 0 <= i < |s.entries|
        ensures UpsertAll(s, rs).entries[i].id == s.entries[i].id
        ensures UpsertAll(s, rs).entries[i].item.ref == s.entries[i].item.ref
      {
        UpsertKeeps(s, rs[0], i);
      }
    }
  }

  /** Entries whose key the batch does not name come out untouched. */
  lemma {:induction false} UpsertAllUntouched(s: Store, rs: seq<Record>)
    requires Valid(s)
    ensures forall i :: 0 <= i < |s.entries| && s.entries[i].id !in Ids(rs) ==>
              i < |UpsertAll(s, rs).entries| && UpsertAll(s, rs).entries[i] == s.entries[i]
    decreases |rs|
  {
    if |rs| > 0 {
      var s1 := Upsert(s, rs[0]);
      UpsertAllUntouched(s1, rs[1..]);
      assert Ids(rs) == {rs[0].id} + Ids(rs[1..]) by {
        assert forall k :: 1 <= k < |rs| ==> rs[k] == rs[1..][k - 1];
      }
      forall i | 0 <= i < |s.entries| && s.entries[i].id !in Ids(rs)
        ensures i < |UpsertAll(s, rs).entries| && UpsertAll(s, rs).entries[i] == s.entries[i]
      {
        UpsertKeeps(s, rs[0], i);
      }
    }
  }

  /** Every key a batch names is present once the batch is applied. */
  lemma {:induction false} UpsertAllCovers(s: Store, rs: seq<Record>)
    requires Valid(s)
    ensures forall k :: 0 <= k < |rs| ==> IndexOf(UpsertAll(s, rs).entries, rs[k].id).Some?
    decreases |rs|
  {
    if |rs| > 0 {
      var s1 := Upsert(s, rs[0]);
      var t := UpsertAll(s1, rs[1..]);
      UpsertAllCovers(s1, rs[1..]);
      UpsertAllKeepsKeys(s1, rs[1..]);
      var p := UpsertSlot(s, rs[0]);
      assert t.entries[p].id == rs[0].id;
      forall k | 1 <= k < |rs|
        ensures IndexOf(t.entries, rs[k].id).Some?
      {
        assert rs[k] == rs[1..][k - 1];
      }
    }
  }

  /** Every entry a batch appends carries a key the batch names. */
  lemma {:induction false} UpsertAllNewKeys(s: Store, rs: seq<Record>)
    requires Valid(s)
    ensures forall i :: |s.entries| <= i < |UpsertAll(s, rs).entries| ==>
              UpsertAll(s, rs).entries[i].id in Ids(rs)
    decreases |rs|
  {
    if |rs| > 0 {
      var s1 := Upsert(s, rs[0]);
      var t := UpsertAll(s1, rs[1..]);
      UpsertAllNewKeys(s1, rs[1..]);
      UpsertAllKeepsKeys(s1, rs[1..]);
      var p := UpsertSlot(s, rs[0]);
      assert Ids(rs) == {rs[0].id} + Ids(rs[1..]) by {
        assert forall k :: 1 <= k < |rs| ==> rs[k] == rs[1..][k - 1];
      }
      forall i | |s.entries| <= i < |t.entries|
        ensures t.entries[i].id in Ids(rs)
      {
        if i < |s1.entries| {
          assert i == p;
          assert t.entries[i].id == rs[0].id;
        }
      }
    }
  }

  /** Applied to the empty map, a batch leaves exactly the keys it names. */
  lemma UpsertAllFromEmpty(rs: seq<Record>)
    ensures (set i | 0 <= i < |UpsertAll(Empty, rs).entries| :: UpsertAll(Empty, rs).entries[i].id) == Ids(rs)
  {
    var es := UpsertAll(Empty, rs).entries;
    UpsertAllNewKeys(Empty, rs);
    UpsertAllCovers(Empty, rs);
    forall k | 0 <= k < |rs|
      ensures rs[k].id in (set i | 0 <= i < |es| :: es[i].id)
    {
      var j := IndexOf(es, rs[k].id).value;
      assert es[j].id == rs[k].id;
    }
  }

  /** Every entry a batch appends is an object allocated by the batch, never
      one that was live or deleted before it. */
  lemma {:induction false} UpsertAllFresh(s: Store, rs: seq<Record>)
    requires Valid(s)
    ensures forall i :: |s.entries| <= i < |UpsertAll(s, rs).entries| ==>
              s.nextRef <= UpsertAll(s, rs).entries[i].item.ref
    decreases |rs|
  {
    if |rs| > 0 {
      var s1 := Upsert(s, rs[0]);
      UpsertAllFresh(s1, rs[1..]);
      UpsertAllKeepsKeys(s1, rs[1..]);
    }
  }

  /** The index of the first record in a batch that names `id`, or the batch's
      length when none does. */
  function FirstAt(rs: seq<Record>, id: Id): (k: nat)
    ensures k <= |rs|
    ensures k < |rs| <==> id in Ids(rs)
    ensures k < |rs| ==> rs[k].id == id
    ensures forall j :: 0 <= j < k ==> rs[j].id != id
  {
    if |rs| == 0 then 0
    else if rs[0].id == id then 0
    else
      assert forall j :: 1 <= j < |rs| ==> rs[j] == rs[1..][j - 1];
      assert Ids(rs) == {rs[0].id} + Ids(rs[1..]);
      1 + FirstAt(rs[1..], id)
  }

  /** A batch appends its new keys in the order of their first records, as a
      Map keeps insertion order. */
  lemma {:induction false} UpsertAllOrder(s: Store, rs: seq<Record>)
    requires Valid(s)
    ensures forall i, j :: |s.entries| <= i < j < |UpsertAll(s, rs).entries| ==>
              FirstAt(rs, UpsertAll(s, rs).entries[i].id) < FirstAt(rs, UpsertAll(s, rs).entries[j].id)
    decreases |rs|
  {
    if |rs| > 0 {
      var s1 := Upsert(s, rs[0]);
      var es := UpsertAll(s1, rs[1..]).entries;
      assert es == UpsertAll(s, rs).entries;
      UpsertAllOrder(s1, rs[1..]);
      UpsertAllKeepsKeys(s1, rs[1..]);
      var p := UpsertSlot(s, rs[0]);
      assert es[p].id == rs[0].id;
      forall i, j | |s.entries| <= i < j < |es|
        ensures FirstAt(rs, es[i].id) < FirstAt(rs, es[j].id)
      {
        assert es[j].id != rs[0].id;
        if i != p {
          assert es[i].id != rs[0].id;
          assert |s1.entries| <= i;
        }
      }
    }
  }

  /** Removes the key of every record in a batch, one record at a time; the
      rest of a record is ignored. */
  function DeleteAll(s: Store, rs: seq<Record>): (s': Store)
    requires Valid(s)
    ensures Valid(s')
    ensures s'.needsUpdate == (s.needsUpdate || |rs| > 0)
    ensures s'.nextRef == s.nextRef
    ensures s'.entries == Without(s.entries, Ids(rs))
    decreases |rs|
  {
    if |rs| == 0 then
      WithoutNothing(s.entries, Ids(rs));
      s
    else
      var s1 := Delete(s, rs[0].id);
      DeleteIsWithout(s, rs[0].id);
      WithoutTwice(s.entries, {rs[0].id}, Ids(rs[1..]));
      assert forall k :: 1 <= k < |rs| ==> rs[k] == rs[1..][k - 1];
      assert Ids(rs) == {rs[0].id} + Ids(rs[1..]);
      DeleteAll(s1, rs[1..])
  }

  /** Reference definition of deleting a set of keys: keep, in order, the
      entries whose key is not in `ids`. */
  function Without(es: seq<Entry>, ids: set<Id>): seq<Entry> {
    if |es| == 0 then []
    else (if es[0].id in ids then [] else [es[0]]) + Without(es[1..], ids)
  }

  lemma {:induction false} WithoutNothing(es: seq<Entry>, ids: set<Id>)
    requires forall j :: 0 <= j < |es| ==> es[j].id !in ids
    ensures Without(es, ids) == es
  {
    if |es| > 0 {
      WithoutNothing(es[1..], ids);
    }
  }

  lemma {:induction false} WithoutConcat(a: seq<Entry>, b: seq<Entry>, ids: set<Id>)
    ensures Without(a + b, ids) == Without(a, ids) + Without(b, ids)
  {
    if |a| > 0 {
      assert (a + b)[1..] == a[1..] + b;
      WithoutConcat(a[1..], b, ids);
    } else {
      assert a + b == b;
    }
  }

  lemma {:induction false} WithoutTwice(es: seq<Entry>, a: set<Id>, b: set<Id>)
    ensures Without(Without(es, a), b) == Without(es, a + b)
  {
    if |es| > 0 {
      var head := if es[0].id in a then [] else [es[0]];
      WithoutConcat(head, Without(es[1..], a), b);
      WithoutTwice(es[1..], a, b);
      if es[0].id !in a {
        assert head[1..] == [];
      }
    }
  }

  /** A single delete is the filter by its one key. */
  lemma DeleteIsWithout(s: Store, id: Id)
    requires Valid(s)
    ensures Delete(s, id).entries == Without(s.entries, {id})
  {
    var es := s.entries;
    match IndexOf(es, id)
    case None =>
      WithoutNothing(es, {id});
    case Some(i) =>
      DeleteIsWithoutAt(s, id, i);
  }

  lemma DeleteIsWithoutAt(s: Store, id: Id, i: nat)
    requires Valid(s) && IndexOf(s.entries, id) == Some(i)
    ensures Delete(s, id).entries == Without(s.entries, {id})
  {
    var es := s.entries;
    var rest := [es[i]] + es[i + 1..];
    assert es == es[..i] + rest;
    WithoutConcat(es[..i], rest, {id});
    assert rest[1..] == es[i + 1..];
    assert Without(rest, {id}) == Without(es[i + 1..], {id});
    assert forall j :: 0 <= j < |es[..i]| ==> es[..i][j].id != id;
    WithoutNothing(es[..i], {id});
    var tail := es[i + 1..];
    forall j | 0 <= j < |tail|
      ensures tail[j].id != id
    {
      assert tail[j] == es[i + 1 + j];
    }
    WithoutNothing(tail, {id});
  }

  /** Replaying a delete batch changes nothing. */
  lemma DeleteBatchReplay(s: Store, rs: seq<Record>)
    requires Valid(s)
    ensures DeleteAll(DeleteAll(s, rs), rs) == DeleteAll(s, rs)
  {
    var ids := Ids(rs);
    WithoutTwice(s.entries, ids, ids);
    assert ids + ids == ids;
  }

  /** The record for `id` that a batch applies last. */
  function Last(rs: seq<Record>, id: Id): (r: Option<Record>)
    ensures r.Some? ==> r.value.id == id
    ensures r.None? <==> id !in Ids(rs)
  {
    if |rs| == 0 then None
    else
      assert forall k :: 1 <= k < |rs| ==> rs[k] == rs[1..][k - 1];
      assert Ids(rs) == {rs[0].id} + Ids(rs[1..]);
      match Last(rs[1..], id)
      case Some(x) => Some(x)
      case None => if rs[0].id == id then Some(rs[0]) else None
  }

  /** What a batch does to one existing item: last write wins. */
  function Settle(it: Item, rs: seq<Record>, id: Id): Item {
    match Last(rs, id)
    case None => it
    case Some(x) => Overwrite(it, x)
  }

  lemma SettleCons(it: Item, rs: seq<Record>, id: Id)
    requires |rs| > 0
    ensures Settle(it, rs, id) == Settle(if rs[0].id == id then Overwrite(it, rs[0]) else it, rs[1..], id)
  {
  }

  /** A batch whose keys are all present only overwrites items in place. */
  lemma {:induction false} UpsertAllPresent(t: Store, rs: seq<Record>)
    requires Valid(t)
    requires forall k :: 0 <= k < |rs| ==> IndexOf(t.entries, rs[k].id).Some?
    ensures |UpsertAll(t, rs).entries| == |t.entries|
    ensures UpsertAll(t, rs).nextRef == t.nextRef
    ensures forall i :: 0 <= i < |t.entries| ==>
              UpsertAll(t, rs).entries[i] == Entry(t.entries[i].id, Settle(t.entries[i].item, rs, t.entries[i].id))
    decreases |rs|
  {
    if |rs| > 0 {
      var t1 := Upsert(t, rs[0]);
      var p := IndexOf(t.entries, rs[0].id).value;
      assert forall k :: 0 <= k < |rs[1..]| ==> IndexOf(t1.entries, rs[1..][k].id).Some? by {
        forall k | 0 <= k < |rs[1..]|
          ensures IndexOf(t1.entries, rs[1..][k].id).Some?
        {
          var q := IndexOf(t.entries, rs[k + 1].id).value;
          assert t1.entries[q].id == rs[k + 1].id;
        }
      }
      UpsertAllPresent(t1, rs[1..]);
      forall i | 0 <= i < |t.entries|
        ensures UpsertAll(t, rs).entries[i] == Entry(t.entries[i].id, Settle(t.entries[i].item, rs, t.entries[i].id))
      {
        SettleCons(t.entries[i].item, rs, t.entries[i].id);
      }
    }
  }

  /** After a batch, every item already holds what its key's last record says. */
  lemma {:induction false} UpsertAllSettled(s: Store, rs: seq<Record>)
    requires Valid(s)
    ensures forall i :: 0 <= i < |UpsertAll(s, rs).entries| ==>
              Settle(UpsertAll(s, rs).entries[i].item, rs, UpsertAll(s, rs).entries[i].id)
              == UpsertAll(s, rs).entries[i].item
    decreases |rs|
  {
    if |rs| > 0 {
      var r := rs[0];
      var s1 := Upsert(s, r);
      var t := UpsertAll(s1, rs[1..]);
      assert t == UpsertAll(s, rs);
      UpsertAllSettled(s1, rs[1..]);
      UpsertAllKeepsKeys(s1, rs[1..]);
      UpsertAllUntouched(s1, rs[1..]);
      var p := UpsertSlot(s, r);
      forall i | 0 <= i < |t.entries|
        ensures Settle(t.entries[i].item, rs, t.entries[i].id) == t.entries[i].item
      {
        SettleCons(t.entries[i].item, rs, t.entries[i].id);
        if t.entries[i].id == r.id && Last(rs[1..], r.id).None? {
          assert t.entries[p].id == r.id;
          assert i == p;
          assert t.entries[p] == s1.entries[p];
        }
      }
    }
  }

  /** Replaying a whole upsert batch leaves the map as the first pass left it. */
  lemma UpsertBatchReplay(s: Store, rs: seq<Record>)
    requires Valid(s)
    ensures UpsertAll(UpsertAll(s, rs), rs) == UpsertAll(s, rs)
  {
    var t := UpsertAll(s, rs);
    UpsertAllCovers(s, rs);
    UpsertAllPresent(t, rs);
    UpsertAllSettled(s, rs);
    assert UpsertAll(t, rs).entries == t.entries;
  }
}

=== FILE: whispers.dfy ===
/**
 The per-instance state of the `Whispers` class (sources/Game/World/Whispers.js)
 and the two things it does with its whisper map: folding server messages into
 it, and the per-tick `update` that projects the live whispers onto the
 30-instance beam mesh and drives the message bubble from the whisper closest
 to the vehicle.

 Rendering is reduced to the instance positions the mesh is given; the bubble
 is reduced to the calls made on it (`hide`, `tryShow`). Distances are compared
 squared (`distance < 3` exactly when the squared distance is below 9).
 */
module Whispers {
  import opened Wrappers
  import opened WhisperStore

  /** `this.count`: the number of beam instances. */
  const Count: nat := 30

  /** Where unused instances are parked, below the ground. */
  const Sentinel: Vec3 := Vec3(0.0, -2.0, 0.0)

  /** Instance position of a freshly built instanced mesh (identity matrix). */
  const Origin: Vec3 := Vec3(0.0, 0.0, 0.0)

  /** `bubble.minDistance`: a whisper is a candidate when strictly closer. */
  const MinDistance: real := 3.0

  /** Height of the bubble anchor above the whisper. */
  const BubbleLift: real := 1.25

  /** A call made on the bubble. */
  datatype BubbleCall = Hide | TryShow(message: string, anchor: Vec3)

  /** A server `message` event: its `type` tag and its `whispers` array. */
  datatype ServerMessage = ServerMessage(kind: string, whispers: seq<Record>)

  /** The fields of a `Whispers` instance the model keeps: `data`, the
      never-read `this.needsUpdate`, the mesh's instance positions and
      visibility, and `bubble.closest` (an item identity or null). */
  datatype State = State(
    data: Store,
    ownerNeedsUpdate: bool,
    slots: seq<Vec3>,
    meshVisible: bool,
    closest: Option<Ref>)

  /** The outcome of one tick: the new state and the bubble call, if any. */
  datatype Tick = Tick(state: State, call: Option<BubbleCall>)

  ghost predicate ValidState(w: State) {
    && Valid(w.data)
    && |w.slots| == Count
    && (w.closest.Some? ==> w.closest.value < w.data.nextRef)
  }

  /** The constructor's data part: `setData`, then the fold of a server
      `initData` snapshot when one has already been received. */
  function Init(initData: Option<seq<Record>>): (w: State)
    ensures ValidState(w)
    ensures !w.meshVisible && w.closest.None? && !w.data.needsUpdate == (initData.None? || |initData.value| == 0)
    ensures initData.None? ==> w.data == Empty && !w.ownerNeedsUpdate
    ensures initData.Some? ==> w.ownerNeedsUpdate
    ensures initData.Some? ==> forall k :: 0 <= k < |initData.value| ==>
              IndexOf(w.data.entries, initData.value[k].id).Some?
    ensures initData.Some? ==>
              (set i | 0 <= i < |w.data.entries| :: w.data.entries[i].id) == Ids(initData.value)
    ensures initData.Some? ==> forall i :: 0 <= i < |w.data.entries| ==>
              Settle(w.data.entries[i].item, initData.value, w.data.entries[i].id) == w.data.entries[i].item
    ensures initData.Some? ==> forall i, j :: 0 <= i < j < |w.data.entries| ==>
              FirstAt(initData.value, w.data.entries[i].id) < FirstAt(initData.value, w.data.entries[j].id)
  {
    var slots := seq(Count, _ => Origin);
    match initData
    case None => State(Empty, false, slots, false, None)
    case Some(rs) =>
      UpsertAllCovers(Empty, rs);
      UpsertAllFromEmpty(rs);
      UpsertAllSettled(Empty, rs);
      UpsertAllOrder(Empty, rs);
      State(UpsertAll(Empty, rs), true, slots, false, None)
  }

  /** The server `message` handler. `init` and `whispersUpsert` fold `upsert`
      over the batch, `whispersDelete` folds `delete`, any other tag is
      ignored. The handler's own `this.needsUpdate = true` writes a field of
      the instance, not `data.needsUpdate`. */
  function OnMessage(w: State, m: ServerMessage): (w': State)
    requires ValidState(w)
    ensures ValidState(w')
    ensures w'.slots == w.slots && w'.meshVisible == w.meshVisible && w'.closest == w.closest
    ensures m.kind != "init" && m.kind != "whispersUpsert" && m.kind != "whispersDelete" ==> w' == w
    ensures m.kind == "init" || m.kind == "whispersUpsert" || m.kind == "whispersDelete" ==>
              && w'.ownerNeedsUpdate
              && w'.data.needsUpdate == (w.data.needsUpdate || |m.whispers| > 0)
    ensures m.kind == "whispersDelete" ==> w'.data.entries == Without(w.data.entries, Ids(m.whispers))
    ensures m.kind == "init" || m.kind == "whispersUpsert" ==>
              forall k :: 0 <= k < |m.whispers| ==> IndexOf(w'.data.entries, m.whispers[k].id).Some?
    ensures m.kind == "init" || m.kind == "whispersUpsert" ==>
              && |w.data.entries| <= |w'.data.entries|
              && forall i :: 0 <= i < |w.data.entries| ==>
                   && w'.data.entries[i].id == w.data.entries[i].id
                   && w'.data.entries[i].item.ref == w.data.entries[i].item.ref
    ensures m.kind == "init" || m.kind == "whispersUpsert" ==>
              forall i :: 0 <= i < |w'.data.entries| ==>
                Settle(w'.data.entries[i].item, m.whispers, w'.data.entries[i].id) == w'.data.entries[i].item
    ensures m.kind == "init" || m.kind == "whispersUpsert" ==>
              forall i :: 0 <= i < |w.data.entries| && w.data.entries[i].id !in Ids(m.whispers) ==>
                w'.data.entries[i] == w.data.entries[i]
    ensures m.kind == "init" || m.kind == "whispersUpsert" ==>
              forall i :: |w.data.entries| <= i < |w'.data.entries| ==>
                w'.data.entries[i].id in Ids(m.whispers) && w.data.nextRef <= w'.data.entries[i].item.ref
    ensures m.kind == "init" || m.kind == "whispersUpsert" ==>
              forall i, j :: |w.data.entries| <= i < j < |w'.data.entries| ==>
                FirstAt(m.whispers, w'.data.entries[i].id) < FirstAt(m.whispers, w'.data.entries[j].id)
  {
    if m.kind == "init" || m.kind == "whispersUpsert" then
      UpsertAllCovers(w.data, m.whispers);
      UpsertAllKeepsKeys(w.data, m.whispers);
      UpsertAllSettled(w.data, m.whispers);
      UpsertAllUntouched(w.data, m.whispers);
      UpsertAllNewKeys(w.data, m.whispers);
      UpsertAllFresh(w.data, m.whispers);
      UpsertAllOrder(w.data, m.whispers);
      w.(data := UpsertAll(w.data, m.whispers), ownerNeedsUpdate := true)
    else if m.kind == "whispersDelete" then
      w.(data := DeleteAll(w.data, m.whispers), ownerNeedsUpdate := true)
    else
      w
  }

  function SquaredDistance(a: Vec3, b: Vec3): real {
    (a.x - b.x) * (a.x - b.x) + (a.y - b.y) * (a.y - b.y) + (a.z - b.z) * (a.z - b.z)
  }

  /** Squared distance from the vehicle to a whisper. */
  function Dist(e: Entry, vehicle: Vec3): real {
    SquaredDistance(vehicle, e.item.position)
  }

  /** A whisper is a bubble candidate when strictly closer than the minimum
      distance; both sides are compared squared. */
  predicate InRange(e: Entry, vehicle: Vec3) {
    Dist(e, vehicle) < MinDistance * MinDistance
  }

  /** The bubble pass's `forEach`: the index of the whisper it ends on, or
      None for `null`. A whisper replaces the current pick only when it is in
      range and strictly closer, so among equally close whispers the first in
      iteration order stays. */
  function Closest(es: seq<Entry>, vehicle: Vec3): (k: Option<nat>)
    ensures k.Some? ==> k.value < |es| && InRange(es[k.value], vehicle)
    ensures k.Some? ==> forall j :: 0 <= j < |es| ==> Dist(es[k.value], vehicle) <= Dist(es[j], vehicle)
    ensures k.Some? ==> forall j :: 0 <= j < k.value ==> Dist(es[k.value], vehicle) < Dist(es[j], vehicle)
    ensures k.None? <==> forall j :: 0 <= j < |es| ==> !InRange(es[j], vehicle)
    decreases |es|
  {
    if |es| == 0 then None
    else
      var init := es[..|es| - 1];
      var last := es[|es| - 1];
      var best := Closest(init, vehicle);
      assert forall j :: 0 <= j < |init| ==> init[j] == es[j];
      if InRange(last, vehicle) && (best.None? || Dist(last, vehicle) < Dist(init[best.value], vehicle)) then
        Some(|es| - 1)
      else
        best
  }

  /** The identity of the picked whisper. */
  function ClosestRef(es: seq<Entry>, vehicle: Vec3): Option<Ref> {
    match Closest(es, vehicle)
    case None => None
    case Some(k) => Some(es[k].item.ref)
  }

  function Lift(p: Vec3): Vec3 {
    p.(y := p.y + BubbleLift)
  }

  /** Instance positions after a rebuild: the live whispers in iteration
      order, then the sentinel. */
  function Projection(es: seq<Entry>): seq<Vec3> {
    seq(Count, i requires 0 <= i < Count => if i < |es| then es[i].item.position else Sentinel)
  }

  /** The rebuild pass as the source runs it: one `setMatrixAt(i)` per entry in
      iteration order, then the sentinel from the entry count up to `count`.
      The entry loop has no bound check; a write at an index at or beyond
      `count` does not land in the 30-instance buffer and is counted in
      `dropped`. */
  method Rebuild(slots: seq<Vec3>, es: seq<Entry>) returns (out: seq<Vec3>, dropped: nat)
    requires |slots| == Count
    ensures |out| == Count
    ensures forall i :: 0 <= i < Count && i < |es| ==> out[i] == es[i].item.position
    ensures forall i :: |es| <= i < Count ==> out[i] == Sentinel
    ensures dropped == if |es| > Count then |es| - Count else 0
    ensures out == Projection(es)
  {
    out := slots;
    dropped := 0;
    var i := 0;
    while i < |es|
      invariant 0 <= i <= |es|
      invariant |out| == Count
      invariant forall j :: 0 <= j < i && j < Count ==> out[j] == es[j].item.position
      invariant dropped == if i > Count then i - Count else 0
    {
      if i < Count {
        out := out[i := es[i].item.position];
      } else {
        dropped := dropped + 1;
      }
      i := i + 1;
    }
    while i < Count
      invariant |es| <= i
      invariant |out| == Count
      invariant forall j :: 0 <= j < Count && j < |es| ==> out[j] == es[j].item.position
      invariant forall j :: |es| <= j < i && j < Count ==> out[j] == Sentinel
    {
      out := out[i := Sentinel];
      i := i + 1;
    }
  }

  /** `update()`: rebuild the instances when `data.needsUpdate` is set, then
      pick the closest whisper and call the bubble only when the pick is a
      different object from `bubble.closest`. */
  function Update(w: State, vehicle: Vec3): (t: Tick)
    requires ValidState(w)
    ensures ValidState(t.state)
    ensures t.state.data == w.data.(needsUpdate := false)
    ensures t.state.ownerNeedsUpdate == w.ownerNeedsUpdate
    ensures w.data.needsUpdate ==> t.state.meshVisible
    ensures w.data.needsUpdate ==> forall i :: 0 <= i < Count && i < |w.data.entries| ==>
              t.state.slots[i] == w.data.entries[i].item.position
    ensures w.data.needsUpdate ==> forall i :: |w.data.entries| <= i < Count ==> t.state.slots[i] == Sentinel
    ensures !w.data.needsUpdate ==> t.state.slots == w.slots && t.state.meshVisible == w.meshVisible
    ensures t.state.closest == ClosestRef(w.data.entries, vehicle)
    ensures t.state.closest.None? <==> forall j :: 0 <= j < |w.data.entries| ==> !InRange(w.data.entries[j], vehicle)
    ensures t.call.Some? <==> t.state.closest != w.closest
    ensures t.call == Some(Hide) <==> t.state.closest.None? && w.closest.Some?
    ensures forall k :: Closest(w.data.entries, vehicle) == Some(k) && t.state.closest != w.closest ==>
              t.call == Some(TryShow(w.data.entries[k].item.message, Lift(w.data.entries[k].item.position)))
  {
    var es := w.data.entries;
    var slots := if w.data.needsUpdate then Projection(es) else w.slots;
    var visible := w.data.needsUpdate || w.meshVisible;
    var picked := Closest(es, vehicle);
    var ref := ClosestRef(es, vehicle);
    var call :=
      if ref == w.closest then None
      else match picked
        case None => Some(Hide)
        case Some(k) => Some(TryShow(es[k].item.message, Lift(es[k].item.position)));
    Tick(State(w.data.(needsUpdate := false), w.ownerNeedsUpdate, slots, visible, ref), call)
  }

  /** A one-record batch is a single call. */
  lemma SingleBatch(s: Store, r: Record)
    requires Valid(s)
    ensures UpsertAll(s, [r]) == Upsert(s, r)
    ensures DeleteAll(s, [r]) == Delete(s, r.id)
  {
    assert [r][1..] == [];
  }

  /** The pick depends only on the positions, in order. */
  lemma {:induction false} ClosestByPositions(a: seq<Entry>, b: seq<Entry>, vehicle: Vec3)
    requires |a| == |b|
    requires forall i :: 0 <= i < |a| ==> a[i].item.position == b[i].item.position
    ensures Closest(a, vehicle) == Closest(b, vehicle)
    decreases |a|
  {
    if |a| > 0 {
      var n := |a| - 1;
      assert forall i :: 0 <= i < n ==> a[..n][i] == a[i] && b[..n][i] == b[i];
      ClosestByPositions(a[..n], b[..n], vehicle);
    }
  }

  /** An empty batch does not raise `data.needsUpdate`, so a tick after it
      leaves the instances as they were. */
  lemma EmptyBatchKeepsInstances(w: State, m: ServerMessage, vehicle: Vec3)
    requires ValidState(w) && !w.data.needsUpdate && |m.whispers| == 0
    ensures Update(OnMessage(w, m), vehicle).state.slots == w.slots
  {
  }

  /** A message carrying one record is one `upsert` or one `delete`, and it
      raises the instance flag. */
  lemma SingleRecordMessage(w: State, r: Record)
    requires ValidState(w)
    ensures OnMessage(w, ServerMessage("whispersUpsert", [r]))
            == w.(data := Upsert(w.data, r), ownerNeedsUpdate := true)
    ensures OnMessage(w, ServerMessage("whispersDelete", [r]))
            == w.(data := Delete(w.data, r.id), ownerNeedsUpdate := true)
  {
    SingleBatch(w.data, r);
  }

  /** The state after the two-whisper batch of `TwoWhispers` reaches a fresh
      instance. */
  lemma TwoWhispersState()
    ensures OnMessage(Init(None), ServerMessage("whispersUpsert",
              [Record("a", "hi", 0.0, 0.0, 0.0), Record("b", "yo", 10.0, 0.0, 0.0)]))
            == State(Store([Entry("a", Item(0, "hi", Vec3(0.0, 0.0, 0.0))),
                            Entry("b", Item(1, "yo", Vec3(10.0, 0.0, 0.0)))], 2, true),
                     true, seq(Count, _ => Origin), false, None)
  {
    TwoWhispers();
  }

  /** Upsert edits an item in place: a new message for any whisper, at the
      same position, keeps the same object picked and makes no bubble call,
      so a bubble already showing that whisper keeps its old text. */
  lemma MessageEditKeepsBubble(w: State, vehicle: Vec3, r: Record, k: nat)
    requires ValidState(w)
    requires k < |w.data.entries| && r.id == w.data.entries[k].id
    requires PositionOf(r) == w.data.entries[k].item.position
    ensures Update(OnMessage(Update(w, vehicle).state, ServerMessage("whispersUpsert", [r])), vehicle).call == None
  {
    var t := Update(w, vehicle).state;
    assert t.data.entries == w.data.entries;
    SingleRecordMessage(t, r);
    EditKeepsPick(t.data, r, k, vehicle);
  }

  /** An upsert that keeps a whisper's position keeps the picked object. */
  lemma EditKeepsPick(s: Store, r: Record, k: nat, vehicle: Vec3)
    requires Valid(s)
    requires k < |s.entries| && r.id == s.entries[k].id
    requires PositionOf(r) == s.entries[k].item.position
    ensures ClosestRef(Upsert(s, r).entries, vehicle) == ClosestRef(s.entries, vehicle)
  {
    var es := s.entries;
    var es2 := Upsert(s, r).entries;
    assert |es2| == |es| && es2[k] == Entry(r.id, Overwrite(es[k].item, r));
    assert forall i :: 0 <= i < |es| && i != k ==> es2[i] == es[i];
    assert forall i :: 0 <= i < |es| ==> es2[i].item.ref == es[i].item.ref;
    ClosestByPositions(es, es2, vehicle);
  }

  /** Deleting a whisper and receiving it again creates a new object, so it
      can never be mistaken for the object `bubble.closest` holds. */
  lemma ReinsertIsNewObject(w: State, r: Record)
    requires ValidState(w)
    ensures var w2 := OnMessage(OnMessage(w, ServerMessage("whispersDelete", [r])),
                                ServerMessage("whispersUpsert", [r]));
            && Get(w2.data.entries, r.id).Some?
            && Get(w2.data.entries, r.id).value.ref == w.data.nextRef
            && (w.closest.Some? ==> Get(w2.data.entries, r.id).value.ref != w.closest.value)
  {
    var w1 := OnMessage(w, ServerMessage("whispersDelete", [r]));
    SingleBatch(w.data, r);
    assert w1.data == Delete(w.data, r.id);
    DeleteGet(w.data, r.id, r.id);
    assert IndexOf(w1.data.entries, r.id).None?;
    var w2 := OnMessage(w1, ServerMessage("whispersUpsert", [r]));
    SingleBatch(w1.data, r);
    assert w2.data == Upsert(w1.data, r);
    IndexOfUnique(w2.data.entries, |w1.data.entries|);
  }

  /** Two whispers upserted in one batch, the vehicle at distance 1 from the
      first: one tick shows the bubble with the first whisper's message. */
  lemma NearestShown()
    ensures var w := OnMessage(Init(None), ServerMessage("whispersUpsert",
                       [Record("a", "hi", 0.0, 0.0, 0.0), Record("b", "yo", 10.0, 0.0, 0.0)]));
            Update(w, Vec3(1.0, 0.0, 0.0)).call == Some(TryShow("hi", Vec3(0.0, 1.25, 0.0)))
  {
    TwoWhispersState();
    NearestOfTwo();
  }

  /** With "a" at the origin and "b" ten units along x, a vehicle at (1, 0, 0)
      picks "a" and the bubble shows its message 1.25 above it. */
  lemma NearestOfTwo()
    ensures Update(State(Store([Entry("a", Item(0, "hi", Vec3(0.0, 0.0, 0.0))),
                                Entry("b", Item(1, "yo", Vec3(10.0, 0.0, 0.0)))], 2, true),
                         true, seq(Count, _ => Origin), false, None), Vec3(1.0, 0.0, 0.0)).call
            == Some(TryShow("hi", Vec3(0.0, 1.25, 0.0)))
  {
    var es := [Entry("a", Item(0, "hi", Vec3(0.0, 0.0, 0.0))), Entry("b", Item(1, "yo", Vec3(10.0, 0.0, 0.0)))];
    assert Closest(es, Vec3(1.0, 0.0, 0.0)) == Some(0) by {
      assert es[..1][0] == es[0];
      assert Closest(es[..1], Vec3(1.0, 0.0, 0.0)) == Some(0);
    }
  }

  /** Continuing from the two-whisper batch and its first tick: deleting the
      shown whisper leaves only one 9 units away, so the next tick hides the
      bubble and parks the freed instance at the sentinel. */
  lemma DeleteShownHides()
    ensures var w := OnMessage(Init(None), ServerMessage("whispersUpsert",
                       [Record("a", "hi", 0.0, 0.0, 0.0), Record("b", "yo", 10.0, 0.0, 0.0)]));
            var t := Update(w, Vec3(1.0, 0.0, 0.0)).state;
            var t2 := Update(OnMessage(t, ServerMessage("whispersDelete", [Record("a", "", 0.0, 0.0, 0.0)])),
                             Vec3(1.0, 0.0, 0.0));
            && |t2.state.data.entries| == 1
            && t2.state.slots[0] == Vec3(10.0, 0.0, 0.0) && t2.state.slots[1] == Sentinel
            && t2.call == Some(Hide)
  {
    var v := Vec3(1.0, 0.0, 0.0);
    var w := OnMessage(Init(None), ServerMessage("whispersUpsert",
               [Record("a", "hi", 0.0, 0.0, 0.0), Record("b", "yo", 10.0, 0.0, 0.0)]));
    var eb := Entry("b", Item(1, "yo", Vec3(10.0, 0.0, 0.0)));
    TwoWhispersState();
    NearestShown();
    var t := Update(w, v).state;
    assert t.closest.Some?;
    var del := Record("a", "", 0.0, 0.0, 0.0);
    var w1 := OnMessage(t, ServerMessage("whispersDelete", [del]));
    SingleRecordMessage(t, del);
    assert w1.data == Delete(t.data, "a");
    assert IndexOf(t.data.entries, "a") == Some(0);
    assert w1.data.entries == [eb];
    assert !InRange(eb, v);
  }

  /** Upserting "a" at the origin and then "b" ten units along x into the
      empty map gives two entries with objects 0 and 1, in batch order. */
  lemma TwoWhispers()
    ensures UpsertAll(Empty, [Record("a", "hi", 0.0, 0.0, 0.0), Record("b", "yo", 10.0, 0.0, 0.0)])
            == Store([Entry("a", Item(0, "hi", Vec3(0.0, 0.0, 0.0))),
                      Entry("b", Item(1, "yo", Vec3(10.0, 0.0, 0.0)))], 2, true)
  {
    var ra := Record("a", "hi", 0.0, 0.0, 0.0);
    var rb := Record("b", "yo", 10.0, 0.0, 0.0);
    var s1 := Upsert(Empty, ra);
    assert s1 == Store([Entry("a", Item(0, "hi", Vec3(0.0, 0.0, 0.0)))], 1, true);
    assert s1.entries[0].id != "b";
    var s2 := Upsert(s1, rb);
    assert s2 == Store(s1.entries + [Entry("b", Item(1, "yo", Vec3(10.0, 0.0, 0.0)))], 2, true);
    assert [ra, rb][1..] == [rb];
    assert UpsertAll(Empty, [ra, rb]) == UpsertAll(s1, [rb]);
    assert [rb][1..] == [];
    assert UpsertAll(s1, [rb]) == UpsertAll(s2, []);
  }
}

=== FILE: wrappers.dfy ===
/** The optional value used across the model where the source uses `null`,
    a missing `Map` entry or an absent `initData`. */
module Wrappers {

  datatype Option<+T> = None | Some(value: T)
}
